=== FILE: README.md ===
# unpdf document simplification, modelled in Dafny

unpdf turns a PDF into a simplified JSON outline. A PDF parser (docling) yields
a document made of an ordered stream of typed text elements (section headers,
list items, plain text and footnotes) and a separate list of tables. The core
modelled here is the pure step that follows the parse, `simplify_document`,
which produces `{"document": [section, ...]}`. It has a module-level version in
`convert.py` and one per recipe:

- **convert.py / FRC recipe.** Each element becomes a content item. List items
  get a paragraph number from a leading digit run, and become sub-items when
  their marker starts with `(`. Items are grouped under the most recent
  section header, and all tables are attached to the last section. Each
  section's level is inferred from its title and the previous title
  (`IAS `, `IFRS `, … open a main section). Level-2 sections are nested under
  the current main section. Consecutive tables whose header rows match are
  merged. The FRC recipe opens an untitled default section first and turns
  every other plain text element (one not labelled as a footnote) into a paragraph. `convert.py` drops whatever
  comes before the first header and keeps only footnotes of plain text.
- **Default recipe.** The FRC conversion followed by a title cleanup: the
  empty-superscript marker `$^{ }$` is deleted, then every `$`, then
  whitespace runs are collapsed.
- **Amnesty recipe.** An outline: an untitled default section, then one empty
  section per distinct header, in order of first appearance.
- **Recipe registry.** Each recipe class is registered under its lower-cased
  class name minus a `recipe` suffix. Recipes are looked up by name, and
  `Unknown recipe: <name>` is the error for a missing one.

Modules, one per component, with one file each:

- `wrappers.dfy`: `Option` and `Result`.
- `strings.dfy`: the Python string operations used: `isdigit`, `isspace`
  (Python's full whitespace set), `lower`, `endswith`, `split(' ', 1)`,
  `replace`, `split()` and `" ".join`.
- `doc_model.dfy`: the parsed document and the output sections. A JSON key
  that the code sets on some dicts only is an `Option` field.
- `levels.dfy`: `infer_section_level`.
- `hierarchy.dfy`: `build_section_hierarchy`.
- `table_merge.dfy`: `merge_consecutive_tables`.
- `builder.dfy`: element classification, grouping, tables and the assembled
  `simplify_document`. A `Variant` value covers the two differences between
  `convert.py` and `FrcRecipe`.
- `titles.dfy`: `DefaultRecipe`.
- `amnesty.dfy`: `AmnestyRecipe`.
- `registry.dfy`: `get_name` and `RecipeRegistry`.

`recipes/frc.py:9-98` repeats `infer_section_level`,
`build_section_hierarchy` and `merge_consecutive_tables` of
`convert.py:24-115` word for word as methods. The same members model both
copies.

The main loops of the source are each modelled twice. One function follows
the code step by step. An independent reference definition says what the
loop should produce, and a lemma proves the two agree. The pairs are:

- hierarchy: `Hierarchy.Run` against `Hierarchy.Leveled`
- table merging: `TableMerge.MergeLoop` against the right fold
  `TableMerge.RefMerge`
- element walk: `Builder.Walk` against `Builder.Group`
- Amnesty loop: `Amnesty.Run` against `Amnesty.Dedup`
- per-section merging: `Builder.MergeAll` against merging each flattened
  section on its own (`Builder.MergeAllFlatten`)
- the default recipe's title loop: `Titles.CleanTitles` against the
  position-by-position relation `Titles.TitlesCleaned` and the untitled tree
  (`Titles.CleanTitlesFlatten`)

The loop that turns tables into content items, with its row and cell
loops, is modelled once. `Builder.TableContent` builds every row and cell at
once, and its contract states each cell.

Edge cases of the code that the model keeps as written:

- A list item whose marker starts with `(` becomes a `sub_item` that keeps
  its `number` key when a number was found.
- `convert.py` drops the list items and footnotes before the first header.
  It also drops every table when the document has no header.
- No filtering of page numbers, URLs or running footers exists in the code,
  so none is modelled.

## Model

| member | source | states |
|---|---|---|
| Levels.InferLevel | convert.py:24-46 | The level is 1 or 2. A main title always gets 1. The level is 2 exactly when the title is not a main title and a previous title exists and is a main title. |
| Levels.MainTitleNonEmpty | convert.py:42 | A main title is never empty, so the truthiness test on `prev_title` cannot change the outcome. |
| Hierarchy.BuildHierarchy | convert.py:49-76 | Every top-level section has level 1 and a list of subsections, each at level 2 with no subsections of its own. Reading the tree in order gives the input sections, each with its inferred level: nothing is lost, duplicated or reordered. |
| Hierarchy.PromotionUnreachable | convert.py:65-72 | Whenever a section is inferred at level 2, a current main section exists, so the orphan-promotion branch never runs. |
| Hierarchy.HierarchyKeepsSections | convert.py:55-74 | The title and content of every input section appear in the tree, in input order. |
| Hierarchy.FirstSectionIsTop | convert.py:55-64 | The first input section always opens the first top-level section, at level 1. |
| Hierarchy.IasExample | convert.py:24-76 | Titles "IAS 36", "Impairment", "IFRS 9" give main "IAS 36" holding subsection "Impairment", then main "IFRS 9". |
| TableMerge.LoopIsRef | convert.py:84-115 | The left-to-right loop with a pending table computes the right-fold reference merge. |
| TableMerge.MergeTables | convert.py:79-115 | Empty input comes back unchanged. The output is never longer than the input. No two adjacent output items are tables that would merge. The non-table items come out unchanged and in order. The result equals the reference merge. |
| TableMerge.NeverAcrossNonTable | convert.py:104-109 | A non-table item splits the merge: each side is merged on its own and the item stays between them. |
| TableMerge.PairMerge | convert.py:88-103 | Two tables merge exactly when both have rows and equal header rows. The merged table keeps the first caption and all first rows, then the second table's rows after its header. Otherwise both tables stay. |
| TableMerge.RunMerge | convert.py:88-98 | A run of tables sharing one header row collapses into a single table. It keeps the first table's caption and rows, followed by each later table's body rows in order. |
| TableMerge.InterruptedExample | convert.py:104-109 | Two tables with the same header but a paragraph between them are not merged. |
| Builder.ParseNumber | convert.py:142-147 | A number is found exactly when the text starts with a digit run ended by a space or by the end of the text. That run's value is the number, and the text after the one space is the rest (empty when nothing follows). Without a number the text is unchanged. |
| Builder.ListItemContent | convert.py:149-160 | A list item is a sub-item exactly when its marker starts with `(`, and it then carries that marker. Otherwise it is a paragraph. Either way it carries the parsed number and the rest of the text. |
| Builder.Classify | recipes/frc.py:119-170 | Headers and other text kinds give no item. List items give their list content. Plain text gives a footnote exactly when its label is `footnote`, keeping its text. In the FRC variant other plain text gives a paragraph without a number. In `convert.py` it gives nothing. |
| Builder.WalkIsGroup | convert.py:125-172 | The element walk equals the reference grouping: one section per header, in order, holding the items of the elements up to the next header. |
| Builder.CollectSpec | convert.py:121-192 | `convert.py` yields one section per header and drops the items before the first header. The FRC recipe puts those items in a leading untitled section. In both, all tables, in table order, end the last section. |
| Builder.WalkKeepsItems | recipes/frc.py:112-170 | Starting from a section, the walk drops nothing: all content, read in order, is the content so far followed by every element's item. |
| Builder.FrcDropsNothing | recipes/frc.py:102-190 | The FRC recipe's collected content is every element's item followed by every table, in order. |
| Builder.TableContent | convert.py:175-188 | A table item has one row per grid row, and each row has as many cells as its grid row, so an empty grid row gives an empty row. Each missing cell becomes `""` and every other cell keeps its text. The caption is the reference of the first caption, and it is absent when the table has no caption. |
| Builder.MergeAllFlatten | convert.py:197-206 | Table merging acts on each section's own content and never across sections, and it keeps the tree well formed. |
| Builder.SimplifySpec | convert.py:118-208 | The document is a well-formed two-level tree. Read in order, it is the collected sections with their inferred levels, each with its content table-merged. |
| Builder.FrcFirstSection | recipes/frc.py:105-113 | The FRC recipe's first section is always the untitled default one, at level 1. |
| Builder.EndToEndExample | convert.py:118-208 | Header "IAS 36", list item "1 Objective text" and one 2x2 table with a missing cell give one level-1 section. It holds paragraph 1 "Objective text" and the table with `""` for the missing cell. |
| Titles.CleanTitle | recipes/default.py:9-26 | A cleaned title contains no `$`. It has no leading or trailing whitespace, and each whitespace character in it is a single space. Its words are the words of the title once the marker and every `$` are deleted. |
| Titles.CleanTitleDetermined | recipes/default.py:15-21 | Any `$`-free, normalised text with those words is the cleaned title, so the contract of `CleanTitle` fixes its result. |
| Strings.WordsOfJoin | recipes/default.py:21 | Splitting the space-join of a list of words gives that list back. |
| Titles.CleanTitleIdempotent | recipes/default.py:9-26 | Cleaning a cleaned title changes nothing. |
| Titles.CleanTitleFixesClean | recipes/default.py:9-26 | A title with no `$` that is already normalised is returned unchanged. |
| Titles.CleanTitleMarkerExample | recipes/default.py:15-18 | The marker is removed as a unit before single `$` signs, so "A$^{ }$B" becomes "AB" rather than "A^{ }B". |
| Titles.DefaultSimplify | recipes/default.py:28-43 | The tree stays well formed. Apart from titles, its in-order reading equals the FRC recipe's in length, order, levels and contents. Each title and subtitle is the cleaned form of the FRC title at the same position, so every title comes out clean. |
| Titles.CleanTitlesIdempotent | recipes/default.py:32-41 | Cleaning the titles of an already cleaned document changes nothing. |
| Amnesty.ShouldSkipHeader | recipes/amnesty.py:9-14 | Skip exactly when the header was seen before. Either way the header is in the seen set afterwards. |
| Amnesty.RunSpec | recipes/amnesty.py:17-45 | After any prefix of the elements, the loop holds the default section and then one empty section per first occurrence of a header, in order. Its seen set is exactly the set of headers met. |
| Amnesty.AmnestySimplify | recipes/amnesty.py:16-47 | The outline opens with the untitled level-1 default section. Every other section has a title only, with no level, no content and no subsections. The titles are the headers with repeats removed, in order of first appearance. |
| Amnesty.AmnestyTitles | recipes/amnesty.py:32-42 | After the default section, no two outline sections share a title, and those titles are exactly the document's header texts. The default title `""` is never marked as seen, so a header with text `""` still opens its own section after the default one. |
| Amnesty.AmnestyCount | recipes/amnesty.py:16-47 | The outline has one section more than the document has distinct headers. |
| Amnesty.AmnestyEmptyHeader | recipes/amnesty.py:19-42 | A header with text `""` opens a second untitled section, because the default title is never marked as seen. |
| Amnesty.AmnestyExample | recipes/amnesty.py:32-42 | Headers "A", "B", "A" with a paragraph between them give the sections "", "A" and "B". |
| Registry.GetName | recipes/base.py:15-19 | The name has no ASCII upper-case letter. When the lower-cased class name ends in "recipe", the name followed by "recipe" is that lower-cased class name. Otherwise the name is the lower-cased class name itself. |
| Registry.GetNameOfSuffixed | recipes/base.py:15-19 | A class named `<Base>Recipe` is named `Base` lower-cased. |
| Registry.GetNameStripsOnce | recipes/base.py:19 | Only one suffix is removed: `RecipeRecipe` is named "recipe". |
| Registry.DefaultName | recipes/base.py:18-19 | `DefaultRecipe` is named "default". |
| Registry.AmnestyName | recipes/base.py:18-19 | `AmnestyRecipe` is named "amnesty". |
| Registry.FrcName | recipes/base.py:18-19 | `FrcRecipe` is named "frc". |
| Registry.Register | recipes/registry.py:20-22 | The class is stored under its name, and every registered name is still listed once. A new name goes to the end of the order. A name already present keeps its place and only its class changes. No other name changes. |
| Registry.RegisterIdempotent | recipes/registry.py:20-22 | Registering the same class twice is the same as registering it once. |
| Registry.GetRecipe | recipes/registry.py:24-29 | A lookup succeeds exactly when the name is registered, and returns that class's instance. Otherwise the error is "Unknown recipe: " followed by the name. |
| Registry.ListRecipes | recipes/registry.py:31-33 | Each name is listed once, and a name is listed exactly when `get_recipe` finds it. |
| Registry.ListRecipesRegister | recipes/registry.py:20-33 | Names are listed in first-registration order: a new name goes after every earlier one, and registering a known name again leaves the list unchanged. |
| Registry.BuiltinRegistry | recipes/registry.py:12-18 | A new registry lists "default", "amnesty", "frc", in that order, and maps them to the three built-in classes. |
| Registry.UnknownRecipe | recipes/registry.py:24-29 | In a new registry any other name is an unknown recipe. |
| Registry.DefaultRecipeSimplifies | recipes/registry.py:24-29 | The default-named recipe gives a well-formed tree. Apart from titles it matches the FRC conversion, and each title is the cleaned FRC title at the same position. |
| Registry.BuiltinDispatch | recipes/registry.py:24-29 | "amnesty" reaches the Amnesty outline and "frc" the FRC conversion. |

## Left out

- `api.py`, `unpdf.py`, `process_pdf` and `analyze_section`: the HTTP API, the command line, PDF parsing, JSON file output and debug dumps. These are I/O around the core.
- The debug `print` calls in `clean_title`: output only.
- Docling's classes: the parsed document is a datatype with four kinds of text element. Dispatch on `type(text).__name__` becomes a match on that datatype. `table.captions[0].cref` becomes the first caption's reference string. A table without `data.grid` becomes a table with an empty grid.
- The constant `"type"` key: each kind of content and section is its own constructor.
- Mutation through aliases (`current_section`, `current_main_section`, the merged `current_table`): every operation is a pure function of its input. The model gives the final value the code's mutations produce.
- Builder.ParseNumber: recognises ASCII digits only. Python's `str.isdigit` also accepts other Unicode digits, and `int()` then raises for some of them, such as superscripts. That path is not modelled.
- Registry.GetName: lower-cases ASCII letters only. Python's `str.lower` also maps other Unicode letters.
- Registry.Register: covers the three recipe behaviours of the repository only. A user-defined recipe class with its own `simplify_document` can be registered under any class name, but it runs one of these three conversions.
- The module-level `registry` instance and `get_recipe`'s default argument: modelled as `NewRegistry()` and the name "default" in `Registry.DefaultRecipeSimplifies`.

=== FILE: amnesty.dfy ===
/**
 * The Amnesty recipe: an outline of the document made of one section per
 * distinct section header, in order of first appearance, behind an untitled
 * default section. Repeated headers (running page headers) are skipped and
 * no content is collected.
 */
module Amnesty {
  import opened Wrappers
  import opened Strings
  import opened DocModel

  /** The section the outline opens with: untitled, level 1, no content. */
  const DefaultSection := Section("", Some(1), [], None)

  /** The section a kept header opens: its title, no level key, no content. */
  function HeaderSection(title: string): Section {
    Section(title, None, [], None)
  }

  /**
   * `_should_skip_header(header_text, seen_headers)`: skip exactly when the
   * header was seen before. Either way the header is in the seen set
   * afterwards.
   */
  function ShouldSkipHeader(h: string, seen: set<string>): (r: (bool, set<string>))
    ensures r.0 <==> h in seen
    ensures r.1 == seen + {h}
    ensures r.0 ==> r.1 == seen
  {
    if h in seen then (true, seen) else (false, seen + {h})
  }

  /** The loop variables: `sections` and `seen_headers`. */
  datatype State = State(sections: seq<Section>, seen: set<string>)

  /** One iteration of the loop over `doc.texts`; elements other than headers are ignored. */
  function Step(st: State, e: Element): State {
    if e.SectionHeader? then
      var (skip, seen) := ShouldSkipHeader(e.text, st.seen);
      if skip then State(st.sections, seen)
      else State(st.sections + [HeaderSection(e.text)], seen)
    else st
  }

  /** The state after the loop has processed all of `es`. */
  function Run(es: seq<Element>): State {
    if |es| == 0 then State([DefaultSection], {})
    else Step(Run(es[..|es| - 1]), es[|es| - 1])
  }

  /** The texts of the section headers among `es`, in order. */
  function HeaderTexts(es: seq<Element>): seq<string> {
    if |es| == 0 then []
    else
      var last := es[|es| - 1];
      HeaderTexts(es[..|es| - 1]) + (if last.SectionHeader? then [last.text] else [])
  }

  /**
   * Reference reading of the outline: `hs` read from the left, keeping each
   * string not in `seen` and not kept before.
   */
  function Dedup(hs: seq<string>, seen: set<string>): seq<string> {
    if |hs| == 0 then []
    else if hs[0] in seen then Dedup(hs[1..], seen)
    else [hs[0]] + Dedup(hs[1..], seen + {hs[0]})
  }

  function SectionTitles(ss: seq<Section>): (ts: seq<string>)
    ensures |ts| == |ss|
    ensures forall i :: 0 <= i < |ss| ==> ts[i] == ss[i].title
  {
    seq(|ss|, i requires 0 <= i < |ss| => ss[i].title)
  }

  /** Growing the input by one string keeps what was kept and adds it when it is new. */
  lemma {:induction false} DedupSnoc(hs: seq<string>, h: string, seen: set<string>)
    ensures Dedup(hs + [h], seen) == Dedup(hs, seen) + (if h in seen || h in hs then [] else [h])
  {
    if |hs| == 0 {
      assert hs + [h] == [h];
      assert [h][1..] == [];
    } else {
      assert (hs + [h])[0] == hs[0];
      assert (hs + [h])[1..] == hs[1..] + [h];
      if hs[0] in seen {
        DedupSnoc(hs[1..], h, seen);
      } else {
        DedupSnoc(hs[1..], h, seen + {hs[0]});
      }
    }
  }

  /** The kept strings are distinct and are exactly those of `hs` not in `seen`. */
  lemma {:induction false} DedupElems(hs: seq<string>, seen: set<string>)
    ensures Distinct(Dedup(hs, seen))
    ensures forall x :: x in Dedup(hs, seen) <==> x in hs && x !in seen
  {
    if |hs| > 0 {
      if hs[0] in seen {
        DedupElems(hs[1..], seen);
        forall x ensures x in hs <==> x == hs[0] || x in hs[1..] {
          assert hs == [hs[0]] + hs[1..];
        }
      } else {
        var rest := Dedup(hs[1..], seen + {hs[0]});
        DedupElems(hs[1..], seen + {hs[0]});
        assert Dedup(hs, seen) == [hs[0]] + rest;
        forall x ensures x in hs <==> x == hs[0] || x in hs[1..] {
          assert hs == [hs[0]] + hs[1..];
        }
        forall i, j | 0 <= i < j < |[hs[0]] + rest|
          ensures ([hs[0]] + rest)[i] != ([hs[0]] + rest)[j]
        {
          if i == 0 {
            assert ([hs[0]] + rest)[j] == rest[j - 1];
            assert rest[j - 1] in rest;
          } else {
            assert ([hs[0]] + rest)[i] == rest[i - 1];
            assert ([hs[0]] + rest)[j] == rest[j - 1];
          }
        }
      }
    }
  }

  lemma ElemsCons(hs: seq<string>)
    requires |hs| > 0
    ensures Elems(hs) == {hs[0]} + Elems(hs[1..])
  {
    assert hs == [hs[0]] + hs[1..];
  }

  /** Removing `seen` from a set with one more element `x`. */
  lemma MinusCons(x: string, b: set<string>, seen: set<string>)
    ensures x in seen ==> ({x} + b) - seen == b - seen
    ensures x !in seen ==> ({x} + b) - seen == {x} + (b - (seen + {x}))
    ensures x !in b - (seen + {x})
  {
  }

  /** As many strings are kept as there are distinct strings of `hs` outside `seen`. */
  lemma {:induction false} DedupCount(hs: seq<string>, seen: set<string>)
    ensures |Dedup(hs, seen)| == |Elems(hs) - seen|
  {
    if |hs| == 0 {
      assert Elems(hs) == {};
    } else {
      ElemsCons(hs);
      MinusCons(hs[0], Elems(hs[1..]), seen);
      if hs[0] in seen {
        DedupCount(hs[1..], seen);
      } else {
        DedupCount(hs[1..], seen + {hs[0]});
      }
    }
  }

  /**
   * What the loop computes: the default section, then one header section per
   * header not seen before, in order; the seen set holds every header met.
   */
  lemma {:induction false} RunSpec(es: seq<Element>)
    ensures |Run(es).sections| >= 1 && Run(es).sections[0] == DefaultSection
    ensures forall k :: 1 <= k < |Run(es).sections| ==>
      Run(es).sections[k] == HeaderSection(Run(es).sections[k].title)
    ensures SectionTitles(Run(es).sections[1..]) == Dedup(HeaderTexts(es), {})
    ensures Run(es).seen == Elems(HeaderTexts(es))
  {
    if |es| > 0 {
      var init := es[..|es| - 1];
      var e := es[|es| - 1];
      var hs := HeaderTexts(init);
      RunSpec(init);
      if e.SectionHeader? {
        DedupSnoc(hs, e.text, {});
        assert HeaderTexts(es) == hs + [e.text];
        assert Elems(hs + [e.text]) == Elems(hs) + {e.text};
        var secs := Run(init).sections;
        if e.text !in hs {
          var secs' := secs + [HeaderSection(e.text)];
          assert secs'[1..] == secs[1..] + [HeaderSection(e.text)];
          assert SectionTitles(secs'[1..]) == SectionTitles(secs[1..]) + [e.text];
        }
      } else {
        assert HeaderTexts(es) == hs;
      }
    }
  }

  /**
   * `AmnestyRecipe.simplify_document(doc)`: the untitled default section
   * followed by one empty section per distinct header, in order of first
   * appearance.
   */
  function AmnestySimplify(doc: ParsedDoc): (r: Document)
    ensures |r.document| >= 1 && r.document[0] == DefaultSection
    ensures forall k :: 1 <= k < |r.document| ==> r.document[k] == HeaderSection(r.document[k].title)
    ensures SectionTitles(r.document[1..]) == Dedup(HeaderTexts(doc.texts), {})
  {
    RunSpec(doc.texts);
    Document(Run(doc.texts).sections)
  }

  /**
   * After the default section, no two sections of the outline share a
   * title, and those titles are exactly the header texts of the document.
   * The default title "" is not marked as seen, so a header "" still opens
   * a section of its own.
   */
  lemma AmnestyTitles(doc: ParsedDoc)
    ensures Distinct(SectionTitles(AmnestySimplify(doc).document[1..]))
    ensures forall t :: t in SectionTitles(AmnestySimplify(doc).document[1..]) <==> t in HeaderTexts(doc.texts)
  {
    DedupElems(HeaderTexts(doc.texts), {});
  }

  /** The outline has one section more than the document has distinct headers. */
  lemma AmnestyCount(doc: ParsedDoc)
    ensures |AmnestySimplify(doc).document| == 1 + |Elems(HeaderTexts(doc.texts))|
  {
    var hs := HeaderTexts(doc.texts);
    DedupCount(hs, {});
    assert Elems(hs) - {} == Elems(hs);
  }

  /** A header "" is new to the seen set, so it opens a second untitled section. */
  lemma AmnestyEmptyHeader()
    ensures AmnestySimplify(ParsedDoc([SectionHeader("")], [])).document
         == [DefaultSection, HeaderSection("")]
  {
    assert [SectionHeader("")][..0] == [];
  }

  /** Headers "A", "B", "A" with a paragraph in between give sections "", "A", "B". */
  lemma AmnestyExample(p: Element)
    requires !p.SectionHeader?
    ensures AmnestySimplify(ParsedDoc([SectionHeader("A"), p, SectionHeader("B"), SectionHeader("A")], [])).document
         == [DefaultSection, HeaderSection("A"), HeaderSection("B")]
  {
    var a, b := SectionHeader("A"), SectionHeader("B");
    var es := [a, p, b, a];
    assert es[..3] == [a, p, b];
    assert [a, p, b][..2] == [a, p];
    assert [a, p][..1] == [a];
    assert [a][..0] == [];
    assert Run([a]) == State([DefaultSection, HeaderSection("A")], {"A"});
    assert Run([a, p]) == Run([a]);
    assert Run([a, p, b]) == State([DefaultSection, HeaderSection("A"), HeaderSection("B")], {"A", "B"});
  }
}

=== FILE: builder.dfy ===
/**
 * `simplify_document` of the structural recipes: classify each text element,
 * group the content items under the section headers, attach the tables to
 * the last section, assemble the hierarchy and merge tables per section.
 *
 * The module-level function of convert.py and the `FrcRecipe` method differ
 * in two ways only, captured by a `Variant`: the FRC recipe opens an
 * empty-titled default section before the first element, and it turns every
 * plain text element not labelled as a footnote into a paragraph (both keep
 * footnotes; convert.py drops the other plain text).
 */
module Builder {
  import opened Wrappers
  import opened Strings
  import opened DocModel
  import opened Levels
  import opened Hierarchy
  import opened TableMerge

  datatype Variant = Variant(openDefault: bool, textParagraphs: bool)

  /** convert.py's `simplify_document`. */
  const ConvertVariant := Variant(false, false)

  /** `FrcRecipe.simplify_document`. */
  const FrcVariant := Variant(true, true)

  /** `text` starts with a run of digits ending at the end of `text` or at position `k`, a space. */
  predicate NumberAt(text: string, k: nat) {
    0 < k <= |text| && IsDigits(text[..k]) && (k == |text| || text[k] == ' ')
  }

  /**
   * The paragraph number of a list item and the text left after it: when
   * the first space-separated token is a run of digits it is the number and
   * the rest (after that one space) is the text, `""` if nothing follows;
   * otherwise there is no number and the text is unchanged ("12abc" has
   * none).
   */
  function ParseNumber(text: string): (r: (Option<nat>, string))
    ensures r.0.Some? <==> exists k: nat :: NumberAt(text, k)
    ensures r.0.None? ==> r.1 == text
    ensures forall k: nat :: NumberAt(text, k) ==>
      r == (Some(DigitsValue(text[..k])), if k == |text| then "" else text[k + 1..])
  {
    if |text| > 0 && IsDigit(text[0]) then
      var parts := SplitOnce(text, ' ');
      if IsDigits(parts.0) then
        var k := |parts.0|;
        assert text[..k] == parts.0;
        assert NumberAt(text, k);
        assert forall k': nat :: NumberAt(text, k') ==> k' == k;
        (Some(DigitsValue(parts.0)), parts.1.ValueOr(""))
      else
        assert forall k: nat :: !NumberAt(text, k);
        (None, text)
    else
      assert forall k: nat :: !NumberAt(text, k);
      (None, text)
  }

  /**
   * A list item: a paragraph with its number, or a sub-item when its marker
   * starts with "(" (the sub-item keeps the number too).
   */
  function ListItemContent(text: string, marker: Option<string>): (c: Content)
    ensures c.Paragraph? || c.SubItem?
    ensures c.SubItem? <==> marker.Some? && "(" <= marker.value
    ensures c.SubItem? ==> c.marker == marker.value
    ensures (c.number, c.text) == ParseNumber(text)
  {
    var (number, rest) := ParseNumber(text);
    if marker.Some? && "(" <= marker.value then SubItem(rest, number, marker.value)
    else Paragraph(rest, number)
  }

  /** The content item an element contributes, if any. */
  function Classify(v: Variant, e: Element): (r: Option<Content>)
    ensures e.SectionHeader? || e.OtherText? ==> r.None?
    ensures e.ListItem? ==> r == Some(ListItemContent(e.text, e.marker))
    ensures (r.Some? && r.value.Footnote?) <==> e.TextItem? && e.textLabel == "footnote"
    ensures r.Some? && r.value.Footnote? ==> r.value.text == e.text
    ensures e.TextItem? && e.textLabel != "footnote" ==>
      r == (if v.textParagraphs then Some(Paragraph(e.text, None)) else None)
  {
    match e
    case SectionHeader(_) => None
    case ListItem(text, marker) => Some(ListItemContent(text, marker))
    case TextItem(text, lbl) =>
      if lbl == "footnote" then Some(Footnote(text))
      else if v.textParagraphs then Some(Paragraph(text, None))
      else None
    case OtherText(_) => None
  }

  /** `items` appended to the content of the current (last) section, if there is one. */
  function AppendToLast(secs: seq<RawSection>, items: seq<Content>): (r: seq<RawSection>)
    ensures |r| == |secs|
  {
    if |secs| == 0 then secs
    else secs[..|secs| - 1] + [secs[|secs| - 1].(content := secs[|secs| - 1].content + items)]
  }

  /** One iteration of the element walk. */
  function WalkStep(v: Variant, secs: seq<RawSection>, e: Element): seq<RawSection> {
    if e.SectionHeader? then secs + [RawSection(e.text, [])]
    else AppendToLast(secs, Classify(v, e).ToSeq())
  }

  /** The element walk from the sections collected so far. */
  function Walk(v: Variant, secs: seq<RawSection>, es: seq<Element>): seq<RawSection>
    decreases |es|
  {
    if |es| == 0 then secs else Walk(v, WalkStep(v, secs, es[0]), es[1..])
  }

  /** The sections before the walk: the default section, or none. */
  function StartSections(v: Variant): seq<RawSection> {
    if v.openDefault then [RawSection("", [])] else []
  }

  /** The content items of `es`, in order (headers contribute none). */
  function Items(v: Variant, es: seq<Element>): seq<Content> {
    if |es| == 0 then [] else Classify(v, es[0]).ToSeq() + Items(v, es[1..])
  }

  /** Index of the first section header in `es`, `|es|` when there is none. */
  function NextHeader(es: seq<Element>): (n: nat)
    ensures n <= |es|
    ensures forall i :: 0 <= i < n ==> !es[i].SectionHeader?
    ensures n < |es| ==> es[n].SectionHeader?
  {
    if |es| == 0 || es[0].SectionHeader? then 0 else 1 + NextHeader(es[1..])
  }

  /** The items before the first header. */
  function Lead(v: Variant, es: seq<Element>): seq<Content> {
    Items(v, es[..NextHeader(es)])
  }

  /**
   * Reference grouping: one section per header, in order, holding the
   * items of the elements up to the next header. Elements before the first
   * header belong to no header.
   */
  function Group(v: Variant, es: seq<Element>): seq<RawSection>
    decreases |es|
  {
    if |es| == 0 then []
    else if es[0].SectionHeader? then
      var body := es[1..];
      var n := NextHeader(body);
      [RawSection(es[0].text, Items(v, body[..n]))] + Group(v, body[n..])
    else Group(v, es[1..])
  }

  lemma {:induction false} GroupSkipsLead(v: Variant, es: seq<Element>)
    ensures Group(v, es) == Group(v, es[NextHeader(es)..])
    decreases |es|
  {
    if |es| > 0 && !es[0].SectionHeader? {
      GroupSkipsLead(v, es[1..]);
      assert es[1..][NextHeader(es[1..])..] == es[NextHeader(es)..];
    }
  }

  lemma AppendToLastTwice(secs: seq<RawSection>, a: seq<Content>, b: seq<Content>)
    ensures AppendToLast(AppendToLast(secs, a), b) == AppendToLast(secs, a + b)
    ensures AppendToLast(secs, []) == secs
  {
    if |secs| > 0 {
      var n := |secs| - 1;
      var s := AppendToLast(secs, a);
      assert s[..n] == secs[..n];
      assert s[n] == secs[n].(content := secs[n].content + a);
      assert secs[n].content + a + b == secs[n].content + (a + b);
      assert secs[|secs| - 1].content + [] == secs[|secs| - 1].content;
      assert secs[..|secs| - 1] + [secs[|secs| - 1]] == secs;
    }
  }

  lemma LeadOfNonHeader(v: Variant, es: seq<Element>)
    requires |es| > 0 && !es[0].SectionHeader?
    ensures Lead(v, es) == Classify(v, es[0]).ToSeq() + Lead(v, es[1..])
  {
    var n := NextHeader(es[1..]);
    assert es[..n + 1][1..] == es[1..][..n];
  }

  /** What the walk yields from `secs` according to the reference grouping. */
  function Grouped(v: Variant, secs: seq<RawSection>, es: seq<Element>): seq<RawSection> {
    (if |secs| == 0 then [] else AppendToLast(secs, Lead(v, es))) + Group(v, es)
  }

  lemma {:induction false} AppendToNewLast(secs: seq<RawSection>, title: string, items: seq<Content>)
    ensures AppendToLast(secs + [RawSection(title, [])], items) == secs + [RawSection(title, items)]
  {
    var secs' := secs + [RawSection(title, [])];
    assert secs'[..|secs|] == secs;
    assert [] + items == items;
  }

  /** At a header, the reference grouping opens that header's section. */
  lemma {:induction false} GroupAtHeader(v: Variant, es: seq<Element>)
    requires |es| > 0 && es[0].SectionHeader?
    ensures Group(v, es) == [RawSection(es[0].text, Lead(v, es[1..]))] + Group(v, es[1..])
    ensures Lead(v, es) == []
  {
    GroupSkipsLead(v, es[1..]);
    assert NextHeader(es) == 0;
    assert es[..0] == [];
  }

  lemma {:induction false} HeaderStepGrouped(v: Variant, secs: seq<RawSection>, es: seq<Element>)
    requires |es| > 0 && es[0].SectionHeader?
    ensures Grouped(v, secs + [RawSection(es[0].text, [])], es[1..]) == Grouped(v, secs, es)
  {
    var rest := es[1..];
    var lead := Lead(v, rest);
    var head := RawSection(es[0].text, lead);
    GroupAtHeader(v, es);
    AppendToLastTwice(secs, [], []);
    AppendToNewLast(secs, es[0].text, lead);
    var secs' := secs + [RawSection(es[0].text, [])];
    assert Grouped(v, secs', rest) == secs + [head] + Group(v, rest);
    assert Grouped(v, secs, es) == secs + ([head] + Group(v, rest));
  }

  lemma {:induction false} NonHeaderStepGrouped(v: Variant, secs: seq<RawSection>, es: seq<Element>)
    requires |es| > 0 && !es[0].SectionHeader?
    ensures Grouped(v, AppendToLast(secs, Classify(v, es[0]).ToSeq()), es[1..]) == Grouped(v, secs, es)
  {
    assert Group(v, es) == Group(v, es[1..]);
    if |secs| > 0 {
      LeadOfNonHeader(v, es);
      AppendToLastTwice(secs, Classify(v, es[0]).ToSeq(), Lead(v, es[1..]));
    }
  }

  /**
   * The walk, from any collected sections, is the reference grouping: the
   * items before the first header go to the current section (or nowhere
   * when there is none), then one section per header follows.
   */
  lemma {:induction false} WalkIsGroup(v: Variant, secs: seq<RawSection>, es: seq<Element>)
    ensures Walk(v, secs, es) == Grouped(v, secs, es)
    decreases |es|
  {
    if |es| == 0 {
      AppendToLastTwice(secs, [], []);
      assert Lead(v, es) == [];
    } else {
      WalkIsGroup(v, WalkStep(v, secs, es[0]), es[1..]);
      if es[0].SectionHeader? {
        HeaderStepGrouped(v, secs, es);
      } else {
        NonHeaderStepGrouped(v, secs, es);
      }
    }
  }

  /** A table of the parsed document as a content item: first caption's reference, cell texts. */
  function TableContent(t: TableElement): (c: Content)
    ensures c.Table? && |c.rows| == |t.grid|
    ensures |t.captions| > 0 <==> c.caption.Some?
    ensures |t.captions| > 0 ==> c.caption == Some(t.captions[0])
    ensures forall i :: 0 <= i < |t.grid| ==> |c.rows[i]| == |t.grid[i]|
    ensures forall i, j :: 0 <= i < |t.grid| && 0 <= j < |t.grid[i]| ==>
      c.rows[i][j] == t.grid[i][j].ValueOr("")
  {
    Table(
      if |t.captions| > 0 then Some(t.captions[0]) else None,
      seq(|t.grid|, i requires 0 <= i < |t.grid| =>
        seq(|t.grid[i]|, j requires 0 <= j < |t.grid[i]| => t.grid[i][j].ValueOr(""))))
  }

  function TablesContent(ts: seq<TableElement>): (cs: seq<Content>)
    ensures |cs| == |ts|
    ensures forall i :: 0 <= i < |ts| ==> cs[i] == TableContent(ts[i])
  {
    seq(|ts|, i requires 0 <= i < |ts| => TableContent(ts[i]))
  }

  /** The sections collected from the document before levels are inferred. */
  function Collect(v: Variant, doc: ParsedDoc): seq<RawSection> {
    AppendToLast(Walk(v, StartSections(v), doc.texts), TablesContent(doc.tables))
  }

  /**
   * Sections as collected: convert.py drops the elements before the first
   * header and attaches the tables only when a section exists; the FRC
   * recipe keeps them in the default section. All tables, in table order,
   * end the last section.
   */
  lemma CollectSpec(v: Variant, doc: ParsedDoc)
    ensures !v.openDefault ==>
      Collect(v, doc) == AppendToLast(Group(v, doc.texts), TablesContent(doc.tables))
    ensures v.openDefault ==>
      Collect(v, doc) == AppendToLast([RawSection("", Lead(v, doc.texts))] + Group(v, doc.texts), TablesContent(doc.tables))
  {
    WalkIsGroup(v, StartSections(v), doc.texts);
    if v.openDefault {
      assert AppendToLast([RawSection("", [])], Lead(v, doc.texts)) == [RawSection("", [] + Lead(v, doc.texts))];
      assert [] + Lead(v, doc.texts) == Lead(v, doc.texts);
    } else {
      assert [] + Group(v, doc.texts) == Group(v, doc.texts);
    }
  }

  lemma AllContentSingle(x: RawSection)
    ensures AllContent([x]) == x.content
  {
    assert [x][1..] == [];
    assert x.content + [] == x.content;
  }

  lemma {:induction false} AllContentAppendToLast(secs: seq<RawSection>, items: seq<Content>)
    requires |secs| > 0
    ensures AllContent(AppendToLast(secs, items)) == AllContent(secs) + items
  {
    var n := |secs| - 1;
    var pre := secs[..n];
    var last := secs[n];
    var last' := last.(content := last.content + items);
    AllContentAppend(pre, [last]);
    AllContentAppend(pre, [last']);
    AllContentSingle(last);
    AllContentSingle(last');
    assert pre + [last] == secs;
    assert AppendToLast(secs, items) == pre + [last'];
  }

  /** From a non-empty start, the walk drops nothing: every element's item lands somewhere, in order. */
  lemma {:induction false} WalkKeepsItems(v: Variant, secs: seq<RawSection>, es: seq<Element>)
    requires |secs| > 0
    ensures |Walk(v, secs, es)| > 0
    ensures AllContent(Walk(v, secs, es)) == AllContent(secs) + Items(v, es)
    decreases |es|
  {
    if |es| > 0 {
      var secs' := WalkStep(v, secs, es[0]);
      WalkKeepsItems(v, secs', es[1..]);
      if es[0].SectionHeader? {
        AllContentAppend(secs, [RawSection(es[0].text, [])]);
        assert [RawSection(es[0].text, [])][1..] == [];
      } else {
        AllContentAppendToLast(secs, Classify(v, es[0]).ToSeq());
      }
    }
  }

  /**
   * With the default section open no element and no table is dropped: the
   * collected contents, in order, are every element's item followed by
   * every table.
   */
  lemma FrcDropsNothing(doc: ParsedDoc)
    ensures AllContent(Collect(FrcVariant, doc)) == Items(FrcVariant, doc.texts) + TablesContent(doc.tables)
  {
    var start := StartSections(FrcVariant);
    var items := Items(FrcVariant, doc.texts);
    var tables := TablesContent(doc.tables);
    assert start == [RawSection("", [])];
    AllContentSingle(RawSection("", []));
    var secs := Walk(FrcVariant, start, doc.texts);
    WalkKeepsItems(FrcVariant, start, doc.texts);
    assert AllContent(secs) == items by {
      assert [] + items == items;
    }
    assert Collect(FrcVariant, doc) == AppendToLast(secs, tables);
    AllContentAppendToLast(secs, tables);
  }

  /** `section` with its content and each subsection's content table-merged. */
  function MergeSection(s: Section): (r: Section)
    ensures r.title == s.title && r.level == s.level
    ensures r.content == MergeTables(s.content)
    ensures r.subsections.Some? <==> s.subsections.Some?
    ensures s.subsections.Some? ==> |r.subsections.value| == |s.subsections.value|
    ensures s.subsections.Some? ==> forall j :: 0 <= j < |s.subsections.value| ==>
      r.subsections.value[j] == s.subsections.value[j].(content := MergeTables(s.subsections.value[j].content))
  {
    var subs := s.subsections;
    s.(content := MergeTables(s.content),
       subsections :=
         if subs.Some? then
           Some(seq(|subs.value|, j requires 0 <= j < |subs.value| =>
             subs.value[j].(content := MergeTables(subs.value[j].content))))
         else None)
  }

  function MergeAll(out: seq<Section>): (r: seq<Section>)
    ensures |r| == |out|
    ensures forall i :: 0 <= i < |out| ==> r[i] == MergeSection(out[i])
  {
    seq(|out|, i requires 0 <= i < |out| => MergeSection(out[i]))
  }

  /** Each detached section with its own content table-merged. */
  function MergeEach(ss: seq<Section>): (r: seq<Section>)
    ensures |r| == |ss|
    ensures forall i :: 0 <= i < |ss| ==> r[i] == ss[i].(content := MergeTables(ss[i].content))
  {
    seq(|ss|, i requires 0 <= i < |ss| => ss[i].(content := MergeTables(ss[i].content)))
  }

  lemma MergeEachAppend(a: seq<Section>, b: seq<Section>)
    ensures MergeEach(a + b) == MergeEach(a) + MergeEach(b)
  {
  }

  /** Merging acts inside each section, never across sections. */
  lemma {:induction false} MergeAllFlatten(out: seq<Section>)
    ensures Flatten(MergeAll(out)) == MergeEach(Flatten(out))
    ensures WellFormed(out) ==> WellFormed(MergeAll(out))
  {
    if |out| > 0 {
      MergeAllFlatten(out[1..]);
      assert MergeAll(out)[1..] == MergeAll(out[1..]);
      var m := MergeSection(out[0]);
      assert Family(m) == MergeEach(Family(out[0]));
      MergeEachAppend(Family(out[0]), Flatten(out[1..]));
    }
  }

  /** `simplify_document` of convert.py (`ConvertVariant`) or of the FRC recipe (`FrcVariant`). */
  function Simplify(v: Variant, doc: ParsedDoc): Document {
    Document(MergeAll(BuildHierarchy(Collect(v, doc))))
  }

  /**
   * The simplified document is a well-formed two-level tree, and reading it
   * in order gives the collected sections, each with its inferred level and
   * its own content table-merged.
   */
  lemma SimplifySpec(v: Variant, doc: ParsedDoc)
    ensures WellFormed(Simplify(v, doc).document)
    ensures Flatten(Simplify(v, doc).document) == MergeEach(Leveled(Collect(v, doc)))
  {
    MergeAllFlatten(BuildHierarchy(Collect(v, doc)));
  }

  /** The FRC recipe's first top-level section is always the default one, titled "" at level 1. */
  lemma FrcFirstSection(doc: ParsedDoc)
    ensures |Simplify(FrcVariant, doc).document| > 0
    ensures Simplify(FrcVariant, doc).document[0].title == ""
    ensures Simplify(FrcVariant, doc).document[0].level == Some(1)
  {
    var secs := Collect(FrcVariant, doc);
    CollectSpec(FrcVariant, doc);
    assert secs[0].title == "";
    FirstSectionIsTop(secs);
  }

  lemma {:induction false} ExampleListItem()
    ensures Classify(ConvertVariant, ListItem("1 Objective text", None)) == Some(Paragraph("Objective text", Some(1)))
  {
    assert NumberAt("1 Objective text", 1);
    assert "1 Objective text"[..1] == "1";
    assert DigitsValue("1") == 1 by {
      assert "1"[..0] == "";
    }
    assert "1 Objective text"[2..] == "Objective text";
  }

  lemma {:induction false} ExampleWalk(p: Content)
    requires Classify(ConvertVariant, ListItem("1 Objective text", None)) == Some(p)
    ensures Walk(ConvertVariant, [], [SectionHeader("IAS 36"), ListItem("1 Objective text", None)])
         == [RawSection("IAS 36", [p])]
  {
    var texts := [SectionHeader("IAS 36"), ListItem("1 Objective text", None)];
    var s0 := RawSection("IAS 36", []);
    var s1 := RawSection("IAS 36", [p]);
    assert WalkStep(ConvertVariant, [], texts[0]) == [s0];
    assert texts[1..] == [texts[1]];
    assert [texts[1]][1..] == [];
    assert WalkStep(ConvertVariant, [s0], texts[1]) == [s1] by {
      assert [s0][..0] == [];
      assert [] + [p] == [p];
    }
    assert Walk(ConvertVariant, [s1], []) == [s1];
    assert Walk(ConvertVariant, [s0], [texts[1]]) == [s1];
  }

  lemma {:induction false} ExampleTable(a: string, b: string, c: string)
    ensures TablesContent([TableElement([], [[Some(a), Some(b)], [Some(c), None]])])
         == [Table(None, [[a, b], [c, ""]])]
  {
    var te := TableElement([], [[Some(a), Some(b)], [Some(c), None]]);
    var t := TableContent(te);
    assert |t.rows| == 2;
    assert |t.rows[0]| == 2 && t.rows[0][0] == a && t.rows[0][1] == b;
    assert |t.rows[1]| == 2 && t.rows[1][0] == c && t.rows[1][1] == "";
    assert t.rows[0] == [a, b];
    assert t.rows[1] == [c, ""];
    assert t.rows == [[a, b], [c, ""]];
    assert t == Table(None, [[a, b], [c, ""]]);
    assert TablesContent([te]) == [t];
  }

  lemma {:induction false} ExampleHierarchy(s: RawSection)
    requires s.title == "IAS 36"
    ensures BuildHierarchy([s]) == [Section("IAS 36", Some(1), s.content, Some([]))]
  {
    assert IsMainTitle("IAS 36") by {
      assert MainHeaders[0] <= "IAS 36";
    }
    assert [s][..0] == [];
    assert Run([s]) == State([], Some(Section("IAS 36", Some(1), s.content, Some([]))), Some("IAS 36"));
  }

  /** A paragraph followed by one table: nothing to merge. */
  lemma {:induction false} ExampleMerge(p: Content, t: Content)
    requires p.Paragraph? && t.Table?
    ensures MergeTables([p, t]) == [p, t]
  {
    assert [p, t][1..] == [t];
    assert [t][1..] == [];
    assert RefMerge([t]) == Push(t, []);
    assert RefMerge([t]) == [t];
    assert RefMerge([p, t]) == [p] + [t];
  }

  /** The sections collected from the end-to-end example document. */
  lemma {:induction false} ExampleCollect(doc: ParsedDoc, p: Content, t: Content)
    requires doc.texts == [SectionHeader("IAS 36"), ListItem("1 Objective text", None)]
    requires Classify(ConvertVariant, ListItem("1 Objective text", None)) == Some(p)
    requires TablesContent(doc.tables) == [t]
    ensures Collect(ConvertVariant, doc) == [RawSection("IAS 36", [p, t])]
  {
    ExampleWalk(p);
    var s1 := RawSection("IAS 36", [p]);
    assert StartSections(ConvertVariant) == [];
    assert Walk(ConvertVariant, [], doc.texts) == [s1];
    assert AppendToLast([s1], [t]) == [s1.(content := [p] + [t])] by {
      assert [s1][..0] == [];
    }
    assert [p] + [t] == [p, t];
  }

  /**
   * Header "IAS 36", list item "1 Objective text", one 2x2 table: one
   * level-1 section "IAS 36" holding paragraph 1 "Objective text" and the
   * two-row table.
   */
  lemma {:induction false} EndToEndExample(a: string, b: string, c: string)
    ensures var doc := ParsedDoc(
              [SectionHeader("IAS 36"), ListItem("1 Objective text", None)],
              [TableElement([], [[Some(a), Some(b)], [Some(c), None]])]);
            Simplify(ConvertVariant, doc).document == [
              Section("IAS 36", Some(1),
                [Paragraph("Objective text", Some(1)), Table(None, [[a, b], [c, ""]])],
                Some([]))]
  {
    var texts := [SectionHeader("IAS 36"), ListItem("1 Objective text", None)];
    var tables := [TableElement([], [[Some(a), Some(b)], [Some(c), None]])];
    var doc := ParsedDoc(texts, tables);
    var p := Paragraph("Objective text", Some(1));
    var t := Table(None, [[a, b], [c, ""]]);
    var s2 := RawSection("IAS 36", [p, t]);
    assert Collect(ConvertVariant, doc) == [s2] by {
      ExampleListItem();
      ExampleTable(a, b, c);
      ExampleCollect(doc, p, t);
    }
    var top := Section("IAS 36", Some(1), [p, t], Some([]));
    assert BuildHierarchy([s2]) == [top] by {
      ExampleHierarchy(s2);
    }
    assert MergeSection(top) == top by {
      ExampleMerge(p, t);
    }
    assert MergeAll([top]) == [top];
  }
}

=== FILE: doc_model.dfy ===
/**
 * The data on both sides of the simplification pipeline.
 *
 * Input: the parser's document, an ordered stream of typed text elements and
 * a separate list of tables. Output: the simplified document, a list of
 * sections whose fields mirror the keys of the produced JSON objects (a key
 * the code does not set is an absent `Option`).
 */
module DocModel {
  import opened Wrappers

  /** One text element of the parsed document, tagged by its kind. */
  datatype Element =
    | SectionHeader(text: string)
    | ListItem(text: string, marker: Option<string>)
    | TextItem(text: string, textLabel: string)
      /** any other text kind (title, caption, code, formula, ...): never classified */
    | OtherText(text: string)

  /**
   * A table of the parsed document: the references of its captions and its
   * cell grid (a cell may be missing). A table without a grid has `grid == []`.
   */
  datatype TableElement = TableElement(captions: seq<string>, grid: seq<seq<Option<string>>>)

  /** The parsed document: `doc.texts` and `doc.tables`. */
  datatype ParsedDoc = ParsedDoc(texts: seq<Element>, tables: seq<TableElement>)

  /** One row of cell texts. */
  type Row = seq<string>

  /** A content item of a section. */
  datatype Content =
    | Paragraph(text: string, number: Option<nat>)
    | SubItem(text: string, number: Option<nat>, marker: string)
    | Footnote(text: string)
    | Table(caption: Option<string>, rows: seq<Row>)

  /** A section while it is being collected, before levels are inferred. */
  datatype RawSection = RawSection(title: string, content: seq<Content>)

  /** A section of the simplified document. */
  datatype Section = Section(
    title: string,
    level: Option<int>,
    content: seq<Content>,
    subsections: Option<seq<Section>>)
  {
    /** The collected section this one was made from. */
    function Raw(): RawSection {
      RawSection(title, content)
    }
  }

  /** The simplified document, `{"document": [...]}`. */
  datatype Document = Document(document: seq<Section>)

  /** The collected sections of a list of output sections, in order. */
  function Raws(ss: seq<Section>): (rs: seq<RawSection>)
    ensures |rs| == |ss|
    ensures forall i :: 0 <= i < |ss| ==> rs[i] == ss[i].Raw()
  {
    if |ss| == 0 then [] else [ss[0].Raw()] + Raws(ss[1..])
  }

  /** Concatenation of the contents of a list of collected sections. */
  function AllContent(rs: seq<RawSection>): seq<Content> {
    if |rs| == 0 then [] else rs[0].content + AllContent(rs[1..])
  }

  lemma {:induction false} AllContentAppend(a: seq<RawSection>, b: seq<RawSection>)
    ensures AllContent(a + b) == AllContent(a) + AllContent(b)
  {
    if |a| == 0 {
      assert a + b == b;
    } else {
      assert (a + b)[1..] == a[1..] + b;
      AllContentAppend(a[1..], b);
    }
  }
}

=== FILE: hierarchy.dfy ===
/**
 * Hierarchy assembly (`build_section_hierarchy`): a single pass over the
 * collected sections that infers each level and nests every level-2
 * section under the current main section.
 *
 * The code keeps `current_main_section` as an alias of a dict that is
 * already in the output list and appends subsections through that alias.
 * The current main section is always the last one appended (a promoted
 * section is only appended while no main section exists), so the model
 * keeps it as an "open" section after the closed ones: the output at any
 * point is `closed` followed by the open main section.
 */
module Hierarchy {
  import opened Wrappers
  import opened DocModel
  import opened Levels

  /** The loop variables: output so far, the current main section, `prev_title`. */
  datatype State = State(closed: seq<Section>, main: Option<Section>, prev: Option<string>)

  /** The `hierarchy` list the state stands for. */
  function Out(st: State): seq<Section> {
    st.closed + (if st.main.Some? then [st.main.value] else [])
  }

  /** One iteration of the loop, for section `s`. */
  function Step(st: State, s: RawSection): State {
    var level := InferLevel(s.title, st.prev);
    if level == 1 then
      State(Out(st), Some(Section(s.title, Some(1), s.content, Some([]))), Some(s.title))
    else if st.main.Some? then
      var m := st.main.value;
      var sub := Section(s.title, Some(level), s.content, None);
      State(st.closed, Some(m.(subsections := Some(m.subsections.ValueOr([]) + [sub]))), Some(s.title))
    else
      // promotion of an orphan level-2 section (never taken, see PromotionUnreachable)
      State(st.closed + [Section(s.title, Some(1), s.content, None)], st.main, Some(s.title))
  }

  /** The state after the loop has processed all of `secs`. */
  function Run(secs: seq<RawSection>): State {
    if |secs| == 0 then State([], None, None)
    else Step(Run(secs[..|secs| - 1]), secs[|secs| - 1])
  }

  /** The title before position `i`, as the loop's `prev_title` sees it. */
  function PrevTitle(secs: seq<RawSection>, i: nat): Option<string>
    requires i <= |secs|
  {
    if i == 0 then None else Some(secs[i - 1].title)
  }

  /**
   * Reference reading of the hierarchy: the input sections, in order, each
   * carrying the level inferred from its own title and the one before it.
   */
  function Leveled(secs: seq<RawSection>): seq<Section> {
    seq(|secs|, i requires 0 <= i < |secs| =>
      Section(secs[i].title, Some(InferLevel(secs[i].title, PrevTitle(secs, i))), secs[i].content, None))
  }

  predicate IsSubsection(s: Section) {
    s.level == Some(2) && s.subsections.None?
  }

  predicate IsTopSection(s: Section) {
    && s.level == Some(1)
    && s.subsections.Some?
    && forall j :: 0 <= j < |s.subsections.value| ==> IsSubsection(s.subsections.value[j])
  }

  /** Every top-level section has level 1 and a list of level-2 leaf subsections. */
  predicate WellFormed(out: seq<Section>) {
    forall i :: 0 <= i < |out| ==> IsTopSection(out[i])
  }

  /** A top-level section followed by its subsections, all detached. */
  function Family(top: Section): seq<Section> {
    [top.(subsections := None)] + top.subsections.ValueOr([])
  }

  /** The tree read in document order: each top-level section, then its subsections. */
  function Flatten(out: seq<Section>): seq<Section> {
    if |out| == 0 then [] else Family(out[0]) + Flatten(out[1..])
  }

  lemma {:induction false} FlattenSnoc(a: seq<Section>, x: Section)
    ensures Flatten(a + [x]) == Flatten(a) + Family(x)
  {
    if |a| == 0 {
      assert a + [x] == [x];
    } else {
      assert (a + [x])[1..] == a[1..] + [x];
      FlattenSnoc(a[1..], x);
    }
  }

  /** What the loop keeps true: the tree so far is well formed and flattens to the processed prefix. */
  predicate Inv(st: State, secs: seq<RawSection>) {
    && (forall i :: 0 <= i < |st.closed| ==> IsTopSection(st.closed[i]))
    && (st.main.Some? ==> IsTopSection(st.main.value))
    && st.prev == PrevTitle(secs, |secs|)
    && (st.prev.Some? && IsMainTitle(st.prev.value) ==> st.main.Some?)
    && Flatten(Out(st)) == Leveled(secs)
  }

  lemma LeveledSnoc(init: seq<RawSection>, s: RawSection)
    ensures Leveled(init + [s])
         == Leveled(init) + [Section(s.title, Some(InferLevel(s.title, PrevTitle(init, |init|))), s.content, None)]
  {
    var secs := init + [s];
    forall i | 0 <= i < |init| ensures PrevTitle(secs, i) == PrevTitle(init, i) {
    }
  }

  /** One iteration keeps the invariant, for the prefix grown by `s`. */
  lemma StepInv(st: State, init: seq<RawSection>, s: RawSection)
    requires Inv(st, init)
    ensures Inv(Step(st, s), init + [s])
  {
    var level := InferLevel(s.title, st.prev);
    var entry := Section(s.title, Some(level), s.content, None);
    LeveledSnoc(init, s);
    assert (init + [s])[|init|] == s;
    if level == 1 {
      var top := Section(s.title, Some(1), s.content, Some([]));
      FlattenSnoc(Out(st), top);
      assert Family(top) == [entry];
    } else {
      var m := st.main.value;
      var sub := Section(s.title, Some(level), s.content, None);
      var m' := m.(subsections := Some(m.subsections.ValueOr([]) + [sub]));
      FlattenSnoc(st.closed, m);
      FlattenSnoc(st.closed, m');
      assert Family(m') == Family(m) + [entry];
    }
  }

  lemma {:induction false} RunInv(secs: seq<RawSection>)
    ensures Inv(Run(secs), secs)
  {
    if |secs| == 0 {
      assert Leveled(secs) == [];
    } else {
      var init := secs[..|secs| - 1];
      RunInv(init);
      StepInv(Run(init), init, secs[|secs| - 1]);
      assert init + [secs[|secs| - 1]] == secs;
    }
  }

  /**
   * `build_section_hierarchy(sections)`. Every top-level section has level 1,
   * every subsection has level 2 and no subsections of its own, and reading
   * the tree in order gives back the input sections with their inferred
   * levels: nothing is lost, duplicated or reordered.
   */
  function BuildHierarchy(secs: seq<RawSection>): (out: seq<Section>)
    ensures WellFormed(out)
    ensures Flatten(out) == Leveled(secs)
  {
    RunInv(secs);
    Out(Run(secs))
  }

  /**
   * The promotion branch is dead: whenever a section is inferred at level 2
   * a current main section exists, because level 2 needs a main previous
   * title and a main title always becomes the current main section.
   */
  lemma {:induction false} PromotionUnreachable(secs: seq<RawSection>, s: RawSection)
    ensures InferLevel(s.title, Run(secs).prev) == 2 ==> Run(secs).main.Some?
  {
    RunInv(secs);
  }

  /** Detached sections carry the title and content of their collected section. */
  lemma {:induction false} HierarchyKeepsSections(secs: seq<RawSection>)
    ensures Raws(Flatten(BuildHierarchy(secs))) == secs
  {
    var flat := Flatten(BuildHierarchy(secs));
    assert |flat| == |secs|;
    forall i | 0 <= i < |secs|
      ensures Raws(flat)[i] == secs[i]
    {
      assert flat[i] == Leveled(secs)[i];
    }
  }

  /** The first collected section always opens the first top-level section. */
  lemma {:induction false} FirstSectionIsTop(secs: seq<RawSection>)
    requires |secs| > 0
    ensures |BuildHierarchy(secs)| > 0
    ensures BuildHierarchy(secs)[0].Raw() == secs[0]
    ensures BuildHierarchy(secs)[0].level == Some(1)
  {
    var out := BuildHierarchy(secs);
    assert Flatten(out)[0] == Leveled(secs)[0];
    assert Flatten(out)[0] == out[0].(subsections := None);
  }

  /**
   * Titles "IAS 36", "Impairment", "IFRS 9" get levels 1, 2, 1: one main
   * section "IAS 36" with the subsection "Impairment", then "IFRS 9" with
   * no subsections.
   */
  lemma IasExample(c1: seq<Content>, c2: seq<Content>, c3: seq<Content>)
    ensures var out := BuildHierarchy([RawSection("IAS 36", c1), RawSection("Impairment", c2), RawSection("IFRS 9", c3)]);
      out == [
        Section("IAS 36", Some(1), c1, Some([Section("Impairment", Some(2), c2, None)])),
        Section("IFRS 9", Some(1), c3, Some([]))]
  {
    assert IsMainTitle("IAS 36") by {
      assert MainHeaders[0] <= "IAS 36";
    }
    assert IsMainTitle("IFRS 9") by {
      assert MainHeaders[1] <= "IFRS 9";
    }
    assert !IsMainTitle("Impairment") by {
      forall i | 0 <= i < |MainHeaders| ensures !(MainHeaders[i] <= "Impairment") {
        assert |MainHeaders[i]| >= 2 && MainHeaders[i][1] != 'm';
      }
    }
    var s1, s2, s3 := RawSection("IAS 36", c1), RawSection("Impairment", c2), RawSection("IFRS 9", c3);
    var secs := [s1, s2, s3];
    assert secs[..2] == [s1, s2];
    assert [s1, s2][..1] == [s1];
    assert [s1][..0] == [];
    var ias := Section("IAS 36", Some(1), c1, Some([]));
    var st1 := State([], Some(ias), Some("IAS 36"));
    assert Run([s1]) == st1;
    var st2 := State([], Some(ias.(subsections := Some([Section("Impairment", Some(2), c2, None)]))), Some("Impairment"));
    assert InferLevel("Impairment", Some("IAS 36")) == 2;
    assert [] + [Section("Impairment", Some(2), c2, None)] == [Section("Impairment", Some(2), c2, None)];
    assert Step(st1, s2) == st2;
    assert Run([s1, s2]) == st2;
    assert InferLevel("IFRS 9", Some("Impairment")) == 1;
  }
}

=== FILE: levels.dfy ===
/**
 * Level inference: whether a section title opens a top-level section (1)
 * or continues the previous top-level section as a subsection (2). The
 * inference looks at the current title and the one immediately before it.
 */
module Levels {
  import opened Wrappers

  /** Title prefixes that mark a main (top-level) section. */
  const MainHeaders: seq<string> :=
    ["IAS ", "IFRS ", "FRS ", "UK exit", "Periodic Review", "Effective date"]

  /** `any(title.startswith(p) for p in main_headers)`. */
  predicate IsMainTitle(title: string) {
    exists i :: 0 <= i < |MainHeaders| && MainHeaders[i] <= title
  }

  /** A main title is never empty, since no main prefix is. */
  lemma MainTitleNonEmpty(title: string)
    requires IsMainTitle(title)
    ensures |title| > 0
  {
    var i :| 0 <= i < |MainHeaders| && MainHeaders[i] <= title;
    assert |MainHeaders[i]| > 0;
  }

  /**
   * `infer_section_level(title, prev_title)`. The result is 1 or 2; it is 2
   * exactly when the title is not a main title and a previous title exists
   * and is one. The truthiness test on `prev_title` adds nothing: the empty
   * title is never a main title.
   */
  function InferLevel(title: string, prev: Option<string>): (level: int)
    ensures level == 1 || level == 2
    ensures IsMainTitle(title) ==> level == 1
    ensures level == 2 <==> !IsMainTitle(title) && prev.Some? && IsMainTitle(prev.value)
  {
    if IsMainTitle(title) then 1
    else if prev.Some? && prev.value != "" && IsMainTitle(prev.value) then
      if !IsMainTitle(title) then 2 else 1
    else 1
  }
}

=== FILE: registry.dfy ===
/**
 * Recipe naming and the recipe registry: each recipe class is registered
 * under a name derived from its class name, and a recipe is looked up by
 * that name. The registry is an insertion-ordered dictionary: registering a
 * name again replaces its class and keeps its position.
 */
module Registry {
  import opened Wrappers
  import opened Strings
  import opened DocModel
  import opened Hierarchy
  import opened Builder
  import opened Titles
  import opened Amnesty

  /** Which `simplify_document` a recipe class runs. */
  datatype Behaviour = FrcBehaviour | DefaultBehaviour | AmnestyBehaviour

  /** A recipe class: its Python class name and the conversion it implements. */
  datatype RecipeClass = RecipeClass(className: string, behaviour: Behaviour)

  /** A recipe instance, as `get_recipe` returns it. */
  datatype Recipe = Recipe(cls: RecipeClass)

  const DefaultRecipe := RecipeClass("DefaultRecipe", DefaultBehaviour)
  const AmnestyRecipe := RecipeClass("AmnestyRecipe", AmnestyBehaviour)
  const FrcRecipe := RecipeClass("FrcRecipe", FrcBehaviour)

  /** The class-name suffix that `get_name` removes, lower-cased. */
  const Suffix := "recipe"

  /**
   * `get_name()`: the class name lower-cased, without one trailing
   * "recipe". The name holds no upper-case ASCII letter, and putting the
   * removed suffix back gives the lower-cased class name.
   */
  function GetName(c: RecipeClass): (name: string)
    ensures forall i :: 0 <= i < |name| ==> !('A' <= name[i] <= 'Z')
    ensures EndsWith(Lower(c.className), Suffix) ==> name + Suffix == Lower(c.className)
    ensures !EndsWith(Lower(c.className), Suffix) ==> name == Lower(c.className)
  {
    var name := Lower(c.className);
    if EndsWith(name, Suffix) then
      assert name[..|name| - 6] + name[|name| - 6..] == name;
      name[..|name| - 6]
    else name
  }

  lemma LowerAppend(a: string, b: string)
    ensures Lower(a + b) == Lower(a) + Lower(b)
  {
    assert |Lower(a + b)| == |Lower(a) + Lower(b)|;
    forall i | 0 <= i < |a + b| ensures Lower(a + b)[i] == (Lower(a) + Lower(b))[i] {
      if i < |a| {
        assert (a + b)[i] == a[i];
      } else {
        assert (a + b)[i] == b[i - |a|];
      }
    }
  }

  /** A class named `<Base>Recipe` is registered as `Base` lower-cased. */
  lemma GetNameOfSuffixed(base: string, b: Behaviour)
    ensures GetName(RecipeClass(base + "Recipe", b)) == Lower(base)
  {
    LowerAppend(base, "Recipe");
    assert Lower("Recipe") == Suffix;
    var lower := Lower(base + "Recipe");
    assert lower == Lower(base) + Suffix;
    assert lower[|lower| - 6..] == Suffix;
    assert lower[..|lower| - 6] == Lower(base);
  }

  /** Lower-casing a capitalised word changes its first letter only. */
  lemma LowerCapitalised(c: char, rest: string)
    requires 'A' <= c <= 'Z'
    requires forall i :: 0 <= i < |rest| ==> !('A' <= rest[i] <= 'Z')
    ensures Lower([c] + rest) == [(c as int + 32) as char] + rest
  {
  }

  /** The class `<Base>Recipe` with `Base` capitalised is named `Base` lower-cased. */
  lemma GetNameOfCapitalised(c: char, rest: string, b: Behaviour)
    requires 'A' <= c <= 'Z'
    requires forall i :: 0 <= i < |rest| ==> !('A' <= rest[i] <= 'Z')
    ensures GetName(RecipeClass([c] + rest + "Recipe", b)) == [(c as int + 32) as char] + rest
  {
    GetNameOfSuffixed([c] + rest, b);
    LowerCapitalised(c, rest);
  }

  /** Only one suffix is removed: a class `RecipeRecipe` is named "recipe". */
  lemma GetNameStripsOnce(b: Behaviour)
    ensures GetName(RecipeClass("RecipeRecipe", b)) == "recipe"
  {
    assert RecipeClass("RecipeRecipe", b) == RecipeClass(['R'] + "ecipe" + "Recipe", b);
    GetNameOfCapitalised('R', "ecipe", b);
  }

  /** The built-in classes are named "default", "amnesty" and "frc". */
  lemma DefaultName()
    ensures GetName(DefaultRecipe) == "default"
  {
    assert DefaultRecipe == RecipeClass(['D'] + "efault" + "Recipe", DefaultBehaviour);
    GetNameOfCapitalised('D', "efault", DefaultBehaviour);
  }

  lemma AmnestyName()
    ensures GetName(AmnestyRecipe) == "amnesty"
  {
    assert AmnestyRecipe == RecipeClass(['A'] + "mnesty" + "Recipe", AmnestyBehaviour);
    GetNameOfCapitalised('A', "mnesty", AmnestyBehaviour);
  }

  lemma FrcName()
    ensures GetName(FrcRecipe) == "frc"
  {
    assert FrcRecipe == RecipeClass(['F'] + "rc" + "Recipe", FrcBehaviour);
    GetNameOfCapitalised('F', "rc", FrcBehaviour);
  }

  /** `_recipes`: the names in insertion order and the class registered under each. */
  datatype Registry = Registry(order: seq<string>, classes: map<string, RecipeClass>)

  /** The order lists every registered name exactly once. */
  predicate Valid(reg: Registry) {
    && Distinct(reg.order)
    && reg.classes.Keys == Elems(reg.order)
  }

  /**
   * `register(recipe_class)`: the class is stored under its name. A new
   * name goes to the end of the order; a name already present keeps its
   * place and only its class changes. No other name is affected.
   */
  function Register(reg: Registry, c: RecipeClass): (r: Registry)
    requires Valid(reg)
    ensures Valid(r)
    ensures GetName(c) in r.classes && r.classes[GetName(c)] == c
    ensures forall n :: n != GetName(c) ==> (n in r.classes <==> n in reg.classes)
    ensures forall n :: n != GetName(c) && n in reg.classes ==> r.classes[n] == reg.classes[n]
    ensures GetName(c) in reg.classes ==> r.order == reg.order
    ensures GetName(c) !in reg.classes ==> r.order == reg.order + [GetName(c)]
  {
    var name := GetName(c);
    if name in reg.classes then Registry(reg.order, reg.classes[name := c])
    else Registry(reg.order + [name], reg.classes[name := c])
  }

  /** Registering the same class twice is the same as registering it once. */
  lemma RegisterIdempotent(reg: Registry, c: RecipeClass)
    requires Valid(reg)
    ensures Register(Register(reg, c), c) == Register(reg, c)
  {
    var r := Register(reg, c);
    assert r.classes[GetName(c) := c] == r.classes;
  }

  /** `RecipeRegistry()`: the three built-in classes, registered in this order. */
  function NewRegistry(): (reg: Registry)
    ensures Valid(reg)
  {
    Register(Register(Register(Registry([], map[]), DefaultRecipe), AmnestyRecipe), FrcRecipe)
  }

  /**
   * `get_recipe(name)`: an instance of the class registered under `name`,
   * or the error "Unknown recipe: <name>" when there is none.
   */
  function GetRecipe(reg: Registry, name: string): (r: Result<Recipe, string>)
    ensures r.Success? <==> name in reg.classes
    ensures r.Success? ==> r.value.cls == reg.classes[name]
    ensures r.Failure? ==> r.error == "Unknown recipe: " + name
  {
    if name in reg.classes then Success(Recipe(reg.classes[name]))
    else Failure("Unknown recipe: " + name)
  }

  /** `list_recipes()`: every registered name, once each, in registration order. */
  function ListRecipes(reg: Registry): (names: seq<string>)
    requires Valid(reg)
    ensures Distinct(names)
    ensures forall n :: n in names <==> GetRecipe(reg, n).Success?
  {
    reg.order
  }

  /**
   * Listing follows first registration: a new name is listed after all the
   * names registered before it, and registering a known name again leaves
   * the list as it was.
   */
  lemma ListRecipesRegister(reg: Registry, c: RecipeClass)
    requires Valid(reg)
    ensures ListRecipes(Register(reg, c))
      == ListRecipes(reg) + (if GetName(c) in reg.classes then [] else [GetName(c)])
  {
  }

  /** The built-in registry lists "default", "amnesty", "frc", in that order, and no other name. */
  lemma BuiltinRegistry()
    ensures ListRecipes(NewRegistry()) == ["default", "amnesty", "frc"]
    ensures NewRegistry().classes == map["default" := DefaultRecipe, "amnesty" := AmnestyRecipe, "frc" := FrcRecipe]
  {
    DefaultName();
    AmnestyName();
    FrcName();
  }

  lemma BuiltinLookup()
    ensures GetRecipe(NewRegistry(), "default") == Success(Recipe(DefaultRecipe))
    ensures GetRecipe(NewRegistry(), "amnesty") == Success(Recipe(AmnestyRecipe))
    ensures GetRecipe(NewRegistry(), "frc") == Success(Recipe(FrcRecipe))
  {
    BuiltinRegistry();
  }

  /** Any name other than the three built-in ones is an unknown recipe. */
  lemma UnknownRecipe(name: string)
    requires name != "default" && name != "amnesty" && name != "frc"
    ensures GetRecipe(NewRegistry(), name) == Failure("Unknown recipe: " + name)
  {
    BuiltinRegistry();
  }

  /** `recipe.simplify_document(doc)` for a recipe instance. */
  function SimplifyDocument(r: Recipe, doc: ParsedDoc): Document {
    match r.cls.behaviour
    case FrcBehaviour => Simplify(FrcVariant, doc)
    case DefaultBehaviour => DefaultSimplify(doc)
    case AmnestyBehaviour => AmnestySimplify(doc)
  }

  /**
   * The recipe `get_recipe` hands out by default ("default") cleans titles
   * on top of the FRC structure: its output has the FRC tree's shape and
   * clean titles.
   */
  lemma DefaultRecipeSimplifies(doc: ParsedDoc)
    ensures GetRecipe(NewRegistry(), "default").Success?
    ensures var out := SimplifyDocument(GetRecipe(NewRegistry(), "default").value, doc);
      && WellFormed(out.document)
      && Untitled(Flatten(out.document)) == Untitled(Flatten(Simplify(FrcVariant, doc).document))
      && TitlesCleaned(Flatten(out.document), Flatten(Simplify(FrcVariant, doc).document))
      && AllTitlesClean(Flatten(out.document))
  {
    BuiltinLookup();
    assert SimplifyDocument(Recipe(DefaultRecipe), doc) == DefaultSimplify(doc);
  }

  /** The "amnesty" and "frc" names reach the Amnesty outline and the FRC conversion. */
  lemma BuiltinDispatch(doc: ParsedDoc)
    ensures GetRecipe(NewRegistry(), "amnesty").Success?
      && SimplifyDocument(GetRecipe(NewRegistry(), "amnesty").value, doc) == AmnestySimplify(doc)
    ensures GetRecipe(NewRegistry(), "frc").Success?
      && SimplifyDocument(GetRecipe(NewRegistry(), "frc").value, doc) == Simplify(FrcVariant, doc)
  {
    BuiltinLookup();
  }
}

=== FILE: strings.dfy ===
/**
 * The handful of Python `str` operations the simplification pipeline relies
 * on, written out over `seq<char>`: `isdigit`, `int`, `isspace`, `lower`,
 * `endswith`, `replace`, `split(' ', 1)`, `split()` and
 * `' '.join`.
 */
module Strings {
  import opened Wrappers

  /** Python's `str.isdigit` for one character, restricted to ASCII. */
  predicate IsDigit(c: char) {
    '0' <= c <= '9'
  }

  /** `s.isdigit()`: non-empty and made of digits only (`"".isdigit()` is false). */
  predicate IsDigits(s: string) {
    |s| > 0 && forall i :: 0 <= i < |s| ==> IsDigit(s[i])
  }

  /** `int(s)` for a run of ASCII digits (leading zeros allowed). */
  function DigitsValue(s: string): nat
    requires forall i :: 0 <= i < |s| ==> IsDigit(s[i])
  {
    if |s| == 0 then 0
    else
      assert IsDigit(s[|s| - 1]);
      10 * DigitsValue(s[..|s| - 1]) + (s[|s| - 1] as int - '0' as int)
  }

  /**
   * Python's `str.isspace` for one character: the ASCII separators
   * (tab, line feed, vertical tab, form feed, carriage return, the four
   * information separators, space) and the Unicode spaces and line breaks.
   */
  predicate IsSpace(c: char) {
    var n := c as int;
    || 9 <= n <= 13
    || 28 <= n <= 32
    || n == 0x85 || n == 0xA0 || n == 0x1680
    || 0x2000 <= n <= 0x200A
    || n == 0x2028 || n == 0x2029 || n == 0x202F || n == 0x205F || n == 0x3000
  }

  /** `str.lower` for one character, restricted to ASCII letters. */
  function LowerChar(c: char): (d: char)
    ensures !('A' <= d <= 'Z')
    ensures 'a' <= c <= 'z' ==> d == c
  {
    if 'A' <= c <= 'Z' then (c as int + 32) as char else c
  }

  /** `s.lower()`: same length, no upper-case ASCII letter left. */
  function Lower(s: string): (r: string)
    ensures |r| == |s|
    ensures forall i :: 0 <= i < |r| ==> r[i] == LowerChar(s[i])
  {
    seq(|s|, i requires 0 <= i < |s| => LowerChar(s[i]))
  }

  /** `s.endswith(suffix)`. */
  predicate EndsWith(s: string, suffix: string) {
    |suffix| <= |s| && s[|s| - |suffix|..] == suffix
  }

  /** Index of the first occurrence of `c` in `s` (`s.find(c)`, with `None` for -1). */
  function IndexOf(s: string, c: char): (k: Option<nat>)
    ensures k.Some? ==> k.value < |s| && s[k.value] == c && c !in s[..k.value]
    ensures k.None? ==> c !in s
  {
    if |s| == 0 then None
    else if s[0] == c then Some(0)
    else match IndexOf(s[1..], c)
      case None => None
      case Some(j) => Some(j + 1)
  }

  /**
   * `s.split(sep, 1)`: the text before the first `sep`, and the text after
   * it when there is one (the list has one part when `sep` is absent).
   */
  function SplitOnce(s: string, sep: char): (parts: (string, Option<string>))
    ensures sep !in parts.0
    ensures parts.1.None? ==> parts.0 == s
    ensures parts.1.Some? ==> s == parts.0 + [sep] + parts.1.value
  {
    match IndexOf(s, sep)
    case None => (s, None)
    case Some(k) =>
      assert s == s[..k] + [sep] + s[k + 1..];
      (s[..k], Some(s[k + 1..]))
  }

  /**
   * `s.replace(pat, rep)`: the leftmost occurrence of `pat` is replaced,
   * scanning resumes after it, so occurrences never overlap and the
   * replacement text is never rescanned.
   */
  function ReplaceAll(s: string, pat: string, rep: string): string
    requires |pat| > 0
    decreases |s|
  {
    if |s| < |pat| then s
    else if s[..|pat|] == pat then rep + ReplaceAll(s[|pat|..], pat, rep)
    else [s[0]] + ReplaceAll(s[1..], pat, rep)
  }

  /** A replacement whose pattern cannot start anywhere in `s` changes nothing. */
  lemma {:induction false} ReplaceAbsent(s: string, pat: string, rep: string)
    requires |pat| > 0 && pat[0] !in s
    ensures ReplaceAll(s, pat, rep) == s
    decreases |s|
  {
    if |s| < |pat| {
    } else {
      assert s[..|pat|][0] == s[0];
      assert s[..|pat|] != pat;
      ReplaceAbsent(s[1..], pat, rep);
    }
  }

  /**
   * Deleting every `c` (`s.replace(c, "")`) leaves no `c` and keeps every
   * other character of `s`.
   */
  lemma {:induction false} DeleteCharSpec(s: string, c: char)
    ensures c !in ReplaceAll(s, [c], "")
    ensures forall d :: d != c ==> (d in ReplaceAll(s, [c], "") <==> d in s)
    ensures |ReplaceAll(s, [c], "")| <= |s|
    decreases |s|
  {
    if |s| < 1 {
    } else {
      DeleteCharSpec(s[1..], c);
      assert s == [s[0]] + s[1..];
      if s[..1] == [c] {
        assert s[0] == c;
      } else {
        assert s[0] != c;
      }
    }
  }

  /** A word of `str.split()`: non-empty and free of whitespace. */
  predicate IsWord(w: string) {
    |w| > 0 && forall i :: 0 <= i < |w| ==> !IsSpace(w[i])
  }

  /** Length of the leading run of non-whitespace characters. */
  function WordLen(s: string): (n: nat)
    ensures n <= |s|
    ensures forall i :: 0 <= i < n ==> !IsSpace(s[i])
    ensures n < |s| ==> IsSpace(s[n])
  {
    if |s| == 0 || IsSpace(s[0]) then 0 else 1 + WordLen(s[1..])
  }

  /** `s.split()`: the maximal runs of non-whitespace characters, in order. */
  function Words(s: string): (ws: seq<string>)
    ensures forall i :: 0 <= i < |ws| ==> IsWord(ws[i])
    ensures |s| > 0 && !IsSpace(s[0]) ==> |ws| > 0 && ws[0] == s[..WordLen(s)]
    decreases |s|
  {
    if |s| == 0 then []
    else if IsSpace(s[0]) then Words(s[1..])
    else
      var n := WordLen(s);
      [s[..n]] + Words(s[n..])
  }

  /** `" ".join(ws)`. */
  function JoinSpace(ws: seq<string>): string {
    if |ws| == 0 then ""
    else if |ws| == 1 then ws[0]
    else ws[0] + " " + JoinSpace(ws[1..])
  }

  /**
   * Whitespace-normalised text: no leading or trailing whitespace, and every
   * whitespace character is a single space followed by a non-space.
   */
  predicate Normalized(s: string) {
    && (|s| > 0 ==> !IsSpace(s[0]) && !IsSpace(s[|s| - 1]))
    && forall i :: 0 <= i < |s| && IsSpace(s[i]) ==> s[i] == ' ' && i + 1 < |s| && !IsSpace(s[i + 1])
  }

  /** Joining words with single spaces gives normalised text. */
  lemma {:induction false} JoinNormalized(ws: seq<string>)
    requires forall i :: 0 <= i < |ws| ==> IsWord(ws[i])
    ensures Normalized(JoinSpace(ws))
    ensures |ws| > 0 ==> |JoinSpace(ws)| > 0
  {
    if |ws| <= 1 {
    } else {
      var w := ws[0];
      var rest := JoinSpace(ws[1..]);
      JoinNormalized(ws[1..]);
      var r := w + " " + rest;
      assert r == JoinSpace(ws);
      forall i | 0 <= i < |r| && IsSpace(r[i])
        ensures r[i] == ' ' && i + 1 < |r| && !IsSpace(r[i + 1])
      {
        if i == |w| {
          assert r[i + 1] == rest[0];
        } else if i > |w| {
          assert r[i] == rest[i - |w| - 1];
        }
      }
    }
  }

  /** What follows a space inside normalised text is normalised and starts a word. */
  lemma NormalizedAfterSpace(s: string, n: nat)
    requires Normalized(s) && n < |s| && IsSpace(s[n])
    ensures n + 1 < |s| && s[n] == ' '
    ensures Normalized(s[n + 1..]) && !IsSpace(s[n + 1])
  {
    var t := s[n + 1..];
    assert t[|t| - 1] == s[|s| - 1];
    forall i | 0 <= i < |t| && IsSpace(t[i])
      ensures t[i] == ' ' && i + 1 < |t| && !IsSpace(t[i + 1])
    {
      assert t[i] == s[n + 1 + i];
    }
  }

  /** A word ended by a whitespace character is split off with that character. */
  lemma WordsAtSpace(s: string)
    requires |s| > 0 && !IsSpace(s[0]) && WordLen(s) < |s|
    ensures Words(s) == [s[..WordLen(s)]] + Words(s[WordLen(s) + 1..])
  {
    var n := WordLen(s);
    var u := s[n..];
    assert Words(s) == [s[..n]] + Words(u);
    assert |u| > 0 && IsSpace(u[0]);
    assert Words(u) == Words(u[1..]);
    assert u[1..] == s[n + 1..];
  }

  lemma JoinCons(w: string, ws: seq<string>)
    requires |ws| > 0
    ensures JoinSpace([w] + ws) == w + " " + JoinSpace(ws)
  {
    assert ([w] + ws)[1..] == ws;
  }

  lemma SplitAround(s: string, n: nat)
    requires n < |s|
    ensures s == s[..n] + [s[n]] + s[n + 1..]
  {
  }

  /** Text without whitespace is its own single word. */
  lemma SingleWord(s: string)
    requires |s| > 0 && WordLen(s) == |s|
    ensures JoinSpace(Words(s)) == s
  {
    assert s[|s|..] == [];
    assert Words(s) == [s[..|s|]];
  }

  /** Normalised text with a space: its first word, one space, and the normalised rest. */
  lemma NormalizedStep(s: string)
    requires Normalized(s) && |s| > 0 && WordLen(s) < |s|
    ensures Normalized(s[WordLen(s) + 1..])
    ensures s == s[..WordLen(s)] + " " + s[WordLen(s) + 1..]
    ensures JoinSpace(Words(s)) == s[..WordLen(s)] + " " + JoinSpace(Words(s[WordLen(s) + 1..]))
  {
    var n := WordLen(s);
    var t := s[n + 1..];
    NormalizedAfterSpace(s, n);
    SplitAround(s, n);
    assert [s[n]] == " ";
    WordsAtSpace(s);
    JoinCons(s[..n], Words(t));
  }

  /** Normalised text is the space-join of its own words. */
  lemma {:induction false} WordsOfNormalized(s: string)
    requires Normalized(s)
    ensures JoinSpace(Words(s)) == s
    decreases |s|
  {
    if |s| > 0 {
      var n := WordLen(s);
      if n == |s| {
        SingleWord(s);
      } else {
        NormalizedStep(s);
        WordsOfNormalized(s[n + 1..]);
      }
    }
  }

  /** A word followed by whitespace, or by nothing, is the leading run of non-whitespace. */
  lemma {:induction false} WordLenOfWord(w: string, t: string)
    requires forall i :: 0 <= i < |w| ==> !IsSpace(w[i])
    requires |t| > 0 ==> IsSpace(t[0])
    ensures WordLen(w + t) == |w|
    decreases |w|
  {
    if |w| > 0 {
      assert (w + t)[0] == w[0];
      assert (w + t)[1..] == w[1..] + t;
      WordLenOfWord(w[1..], t);
    } else {
      assert w + t == t;
    }
  }

  /** A word, a space, then any text: the word is split off first. */
  lemma WordsAfterWord(w: string, rest: string)
    requires IsWord(w)
    ensures Words(w + " " + rest) == [w] + Words(rest)
  {
    var s := w + " " + rest;
    assert s == w + (" " + rest);
    WordLenOfWord(w, " " + rest);
    assert s[..|w|] == w;
    assert s[|w| + 1..] == rest;
    WordsAtSpace(s);
  }

  /** Splitting a space-join of words gives the words back: `" ".join(ws).split() == ws`. */
  lemma {:induction false} WordsOfJoin(ws: seq<string>)
    requires forall i :: 0 <= i < |ws| ==> IsWord(ws[i])
    ensures Words(JoinSpace(ws)) == ws
  {
    if |ws| == 1 {
      var w := ws[0];
      WordLenOfWord(w, "");
      assert w + "" == w;
      assert w[..|w|] == w && w[|w|..] == "";
    } else if |ws| > 1 {
      WordsAfterWord(ws[0], JoinSpace(ws[1..]));
      WordsOfJoin(ws[1..]);
      assert ws == [ws[0]] + ws[1..];
    }
  }

  /** The strings of `ss`, as a set. */
  function Elems(ss: seq<string>): set<string> {
    set s | s in ss
  }

  /** No string occurs twice in `ss`. */
  predicate Distinct(ss: seq<string>) {
    forall i, j :: 0 <= i < j < |ss| ==> ss[i] != ss[j]
  }
}

=== FILE: table_merge.dfy ===
/**
 * Table merging (`merge_consecutive_tables`): one left-to-right pass over a
 * section's content that joins a table to the table right before it when
 * both have rows and their first (header) rows are equal. The joined table
 * keeps the first table's caption and rows and gains the second table's rows
 * after its header.
 */
module TableMerge {
  import opened Wrappers
  import opened DocModel

  /** `b` continues `a`: both are tables with rows, and their header rows are equal. */
  predicate Continues(a: Content, b: Content) {
    a.Table? && b.Table? && |a.rows| > 0 && |b.rows| > 0 && a.rows[0] == b.rows[0]
  }

  /** `a` extended by the rows of `b` after its header row. */
  function Join(a: Content, b: Content): Content
    requires a.Table? && b.Table?
  {
    Table(a.caption, a.rows + (if |b.rows| == 0 then [] else b.rows[1..]))
  }

  /** The loop, with `merged_content` as `out` and `current_table` as `cur`. */
  function MergeLoop(items: seq<Content>, out: seq<Content>, cur: Option<Content>): seq<Content>
    requires cur.Some? ==> cur.value.Table?
    decreases |items|
  {
    if |items| == 0 then out + cur.ToSeq()
    else
      var item := items[0];
      if item.Table? then
        if cur.Some? && Continues(cur.value, item) then
          MergeLoop(items[1..], out, Some(Join(cur.value, item)))
        else
          MergeLoop(items[1..], out + cur.ToSeq(), Some(item))
      else
        MergeLoop(items[1..], out + cur.ToSeq() + [item], None)
  }

  /**
   * Reference definition, from the right: a table absorbs the table after it
   * when that one continues it, and is otherwise kept as it is.
   */
  function Push(t: Content, r: seq<Content>): seq<Content>
    requires t.Table?
  {
    if |r| > 0 && Continues(t, r[0]) then [Join(t, r[0])] + r[1..] else [t] + r
  }

  function RefMerge(items: seq<Content>): seq<Content> {
    if |items| == 0 then []
    else if items[0].Table? then Push(items[0], RefMerge(items[1..]))
    else [items[0]] + RefMerge(items[1..])
  }

  /** Adjacent tables in `s` that a merge would have joined. */
  predicate NoContinuation(s: seq<Content>) {
    forall i :: 0 <= i < |s| - 1 ==> !Continues(s[i], s[i + 1])
  }

  /** The non-table items of `s`, in order. */
  function NonTables(s: seq<Content>): seq<Content> {
    if |s| == 0 then []
    else (if s[0].Table? then [] else [s[0]]) + NonTables(s[1..])
  }

  /** Two tables with the same header row (or both without rows) continue and are continued alike. */
  predicate SameHead(a: Content, b: Content) {
    && a.Table? && b.Table?
    && (|a.rows| > 0 <==> |b.rows| > 0)
    && (|a.rows| > 0 ==> a.rows[0] == b.rows[0])
  }

  /** The first item `Push` produces heads the same as the pushed table. */
  lemma PushHead(t: Content, r: seq<Content>)
    requires t.Table?
    ensures |Push(t, r)| > 0 && SameHead(Push(t, r)[0], t)
    ensures Push(t, r)[0].caption == t.caption
  {
  }

  /** A table pushed onto an item that is not a table stays on its own. */
  lemma PushOntoNonTable(t: Content, a: seq<Content>, b: seq<Content>)
    requires t.Table?
    requires |a| > 0 || (|b| > 0 && !b[0].Table?)
    ensures Push(t, a + b) == Push(t, a) + b
  {
    if |a| > 0 {
      assert (a + b)[0] == a[0];
      assert (a + b)[1..] == a[1..] + b;
    } else {
      assert a + b == b;
    }
  }

  /** Joining a continuation first and pushing the rest is the same as pushing twice. */
  lemma PushJoin(c: Content, t: Content, r: seq<Content>)
    requires c.Table? && t.Table? && Continues(c, t)
    ensures Push(Join(c, t), r) == Push(c, Push(t, r))
  {
    var ct := Join(c, t);
    if |r| > 0 && Continues(t, r[0]) {
      var tr := Join(t, r[0]);
      assert Continues(c, tr);
      assert Continues(ct, r[0]);
      assert (t.rows + r[0].rows[1..])[1..] == t.rows[1..] + r[0].rows[1..];
      assert Join(ct, r[0]) == Join(c, tr);
    } else {
      if |r| > 0 {
        assert Continues(ct, r[0]) <==> Continues(t, r[0]);
      }
    }
  }

  /** The loop from any state is the pending table pushed onto the reference merge. */
  lemma {:induction false} LoopIsRef(items: seq<Content>, out: seq<Content>, cur: Option<Content>)
    requires cur.Some? ==> cur.value.Table?
    ensures MergeLoop(items, out, cur)
         == out + (if cur.Some? then Push(cur.value, RefMerge(items)) else RefMerge(items))
    decreases |items|
  {
    if |items| > 0 {
      var item := items[0];
      var rest := items[1..];
      var r := RefMerge(rest);
      if item.Table? {
        assert RefMerge(items) == Push(item, r);
        if cur.Some? && Continues(cur.value, item) {
          var j := Join(cur.value, item);
          assert MergeLoop(items, out, cur) == MergeLoop(rest, out, Some(j));
          LoopIsRef(rest, out, Some(j));
          PushJoin(cur.value, item, r);
        } else {
          var p := Push(item, r);
          assert MergeLoop(items, out, cur) == MergeLoop(rest, out + cur.ToSeq(), Some(item));
          LoopIsRef(rest, out + cur.ToSeq(), Some(item));
          if cur.Some? {
            PushHead(item, r);
            assert !Continues(cur.value, p[0]);
            assert Push(cur.value, p) == [cur.value] + p;
            assert out + [cur.value] + p == out + ([cur.value] + p);
          } else {
            assert out + [] + p == out + p;
          }
        }
      } else {
        assert RefMerge(items) == [item] + r;
        assert MergeLoop(items, out, cur) == MergeLoop(rest, out + cur.ToSeq() + [item], None);
        LoopIsRef(rest, out + cur.ToSeq() + [item], None);
        if cur.Some? {
          assert Push(cur.value, [item] + r) == [cur.value] + ([item] + r);
          assert out + [cur.value] + [item] + r == out + ([cur.value] + ([item] + r));
        } else {
          assert out + [] + [item] + r == out + ([item] + r);
        }
      }
    }
  }

  lemma {:induction false} RefNoContinuation(items: seq<Content>)
    ensures NoContinuation(RefMerge(items))
  {
    if |items| > 0 {
      RefNoContinuation(items[1..]);
      var r := RefMerge(items[1..]);
      if items[0].Table? && |r| > 0 && Continues(items[0], r[0]) {
        var j := Join(items[0], r[0]);
        var s := [j] + r[1..];
        forall i | 0 <= i < |s| - 1 ensures !Continues(s[i], s[i + 1]) {
          if i == 0 {
            assert s[1] == r[1];
            assert !Continues(r[0], r[1]);
          } else {
            assert s[i] == r[i] && s[i + 1] == r[i + 1];
          }
        }
      } else {
        var s := RefMerge(items);
        assert s == [items[0]] + r;
        forall i | 0 <= i < |s| - 1 ensures !Continues(s[i], s[i + 1]) {
          if i > 0 {
            assert s[i] == r[i - 1] && s[i + 1] == r[i];
          }
        }
      }
    }
  }

  lemma NonTablesCons(x: Content, s: seq<Content>)
    ensures NonTables([x] + s) == (if x.Table? then [] else [x]) + NonTables(s)
  {
    assert ([x] + s)[1..] == s;
  }

  lemma {:induction false} RefNonTables(items: seq<Content>)
    ensures NonTables(RefMerge(items)) == NonTables(items)
    ensures |RefMerge(items)| <= |items|
  {
    if |items| > 0 {
      var r := RefMerge(items[1..]);
      RefNonTables(items[1..]);
      if items[0].Table? && |r| > 0 && Continues(items[0], r[0]) {
        NonTablesCons(Join(items[0], r[0]), r[1..]);
        NonTablesCons(r[0], r[1..]);
        assert r == [r[0]] + r[1..];
      } else {
        NonTablesCons(items[0], r);
      }
    }
  }

  /** Tables on both sides of a non-table item are merged independently of each other. */
  lemma {:induction false} RefSplitsAtNonTable(a: seq<Content>, x: Content, b: seq<Content>)
    requires !x.Table?
    ensures RefMerge(a + [x] + b) == RefMerge(a) + ([x] + RefMerge(b))
  {
    var s := a + [x] + b;
    var tail := [x] + RefMerge(b);
    if |a| == 0 {
      assert s == [x] + b;
      assert s[1..] == b;
      assert RefMerge(s) == tail;
    } else {
      var rest := a[1..] + [x] + b;
      assert s[0] == a[0] && s[1..] == rest by {
        assert a == [a[0]] + a[1..];
      }
      var ra := RefMerge(a[1..]);
      assert RefMerge(rest) == ra + tail by {
        RefSplitsAtNonTable(a[1..], x, b);
      }
      if a[0].Table? {
        assert RefMerge(s) == Push(a[0], ra + tail);
        assert RefMerge(a) == Push(a[0], ra);
        PushOntoNonTable(a[0], ra, tail);
      } else {
        assert RefMerge(s) == [a[0]] + (ra + tail);
        assert RefMerge(a) == [a[0]] + ra;
      }
    }
  }

  /**
   * `merge_consecutive_tables(content_items)`. Empty content is returned
   * unchanged; the output is never longer than the input; no two adjacent
   * output items are tables that continue one another; non-table items
   * pass through in their original order; and the result equals the
   * right-to-left reference merge.
   */
  function MergeTables(items: seq<Content>): (r: seq<Content>)
    ensures |items| == 0 ==> r == items
    ensures |r| <= |items|
    ensures NoContinuation(r)
    ensures NonTables(r) == NonTables(items)
    ensures r == RefMerge(items)
  {
    LoopIsRef(items, [], None);
    assert [] + RefMerge(items) == RefMerge(items);
    RefNoContinuation(items);
    RefNonTables(items);
    if |items| == 0 then items else MergeLoop(items, [], None)
  }

  /** Two tables separated by a non-table item are never merged, whatever their headers. */
  lemma NeverAcrossNonTable(a: seq<Content>, x: Content, b: seq<Content>)
    requires !x.Table?
    ensures MergeTables(a + [x] + b) == MergeTables(a) + [x] + MergeTables(b)
  {
    RefSplitsAtNonTable(a, x, b);
    assert RefMerge(a) + ([x] + RefMerge(b)) == RefMerge(a) + [x] + RefMerge(b);
  }

  /** Table, paragraph, table with the same header stay three items. */
  lemma InterruptedExample(h: Row, r1: Row, r2: Row, p: string)
    ensures var t1 := Table(None, [h, r1]);
            var t2 := Table(None, [h, r2]);
            MergeTables([t1, Paragraph(p, None), t2]) == [t1, Paragraph(p, None), t2]
  {
    var t1 := Table(None, [h, r1]);
    var t2 := Table(None, [h, r2]);
    RefSplitsAtNonTable([t1], Paragraph(p, None), [t2]);
    assert [t1] + [Paragraph(p, None)] + [t2] == [t1, Paragraph(p, None), t2];
  }

  /** Two adjacent tables: joined when the second continues the first, both kept otherwise. */
  lemma {:induction false} PairMerge(t1: Content, t2: Content)
    requires t1.Table? && t2.Table?
    ensures Continues(t1, t2) ==> MergeTables([t1, t2]) == [Table(t1.caption, t1.rows + t2.rows[1..])]
    ensures !Continues(t1, t2) ==> MergeTables([t1, t2]) == [t1, t2]
  {
    assert [t1, t2][1..] == [t2];
    assert [t2][1..] == [];
    assert RefMerge([t2]) == [t2];
  }

  /** The rows after the header of each table, concatenated. */
  function BodyRows(ts: seq<Content>): seq<Row>
    requires forall i :: 0 <= i < |ts| ==> ts[i].Table? && |ts[i].rows| > 0
  {
    if |ts| == 0 then [] else ts[0].rows[1..] + BodyRows(ts[1..])
  }

  /**
   * A whole run of tables sharing one header row becomes one table: the
   * first table's caption and rows, then every later table's rows after
   * its header.
   */
  lemma {:induction false} RunMerge(ts: seq<Content>)
    requires |ts| > 0 && ts[0].Table? && |ts[0].rows| > 0
    requires forall i :: 0 <= i < |ts| ==> ts[i].Table? && |ts[i].rows| > 0 && ts[i].rows[0] == ts[0].rows[0]
    ensures MergeTables(ts) == [Table(ts[0].caption, ts[0].rows + BodyRows(ts[1..]))]
  {
    if |ts| == 1 {
      assert ts == [ts[0]] && ts[1..] == [];
      assert ts[0].rows + BodyRows([]) == ts[0].rows;
      assert RefMerge(ts) == Push(ts[0], []);
    } else {
      RunMerge(ts[1..]);
      var t1 := ts[1];
      assert (t1.rows + BodyRows(ts[2..]))[1..] == t1.rows[1..] + BodyRows(ts[2..]);
      assert ts[1..][1..] == ts[2..];
    }
  }
}

=== FILE: titles.dfy ===
/**
 * The default recipe: the FRC structural recipe followed by a title
 * cleanup of every section and subsection (`DefaultRecipe.clean_title`).
 */
module Titles {
  import opened Wrappers
  import opened Strings
  import opened DocModel
  import opened Hierarchy
  import opened Builder

  /** The empty-superscript marker the typesetting leaves in titles. */
  const EmptySuperscript: string := "$^{ }$"

  /** Every character of the words of `s` is a character of `s`. */
  lemma {:induction false} WordsChars(s: string)
    ensures forall i, c :: 0 <= i < |Words(s)| && c in Words(s)[i] ==> c in s
    decreases |s|
  {
    if |s| > 0 {
      if IsSpace(s[0]) {
        WordsChars(s[1..]);
        assert Words(s) == Words(s[1..]);
        forall i, c | 0 <= i < |Words(s)| && c in Words(s)[i] ensures c in s {
          assert c in s[1..];
        }
      } else {
        var n := WordLen(s);
        WordsChars(s[n..]);
        assert Words(s) == [s[..n]] + Words(s[n..]);
        forall i, c | 0 <= i < |Words(s)| && c in Words(s)[i] ensures c in s {
          if i == 0 {
            assert c in s[..n];
            var k :| 0 <= k < n && s[..n][k] == c;
            assert s[k] == c;
          } else {
            assert Words(s)[i] == Words(s[n..])[i - 1];
            assert c in s[n..];
            var k :| 0 <= k < |s| - n && s[n..][k] == c;
            assert s[n + k] == c;
          }
        }
      }
    }
  }

  /** A space-join holds only spaces and characters of the joined words. */
  lemma {:induction false} JoinChars(ws: seq<string>, c: char)
    requires c != ' ' && forall i :: 0 <= i < |ws| ==> c !in ws[i]
    ensures c !in JoinSpace(ws)
  {
    if |ws| > 1 {
      JoinChars(ws[1..], c);
    }
  }

  /**
   * `clean_title`: the empty-superscript marker is deleted as a unit first,
   * then every remaining `$`, then whitespace runs are collapsed to single
   * spaces and the ends trimmed. The result holds no `$`, is
   * whitespace-normalised and has the words of the title with the marker
   * and the `$` signs deleted. Normalised text is determined by its words,
   * so these facts fix the result.
   */
  function CleanTitle(title: string): (r: string)
    ensures '$' !in r
    ensures Normalized(r)
    ensures Words(r) == Words(ReplaceAll(ReplaceAll(title, EmptySuperscript, ""), "$", ""))
  {
    var noMarker := ReplaceAll(title, EmptySuperscript, "");
    var noDollar := ReplaceAll(noMarker, "$", "");
    var words := Words(noDollar);
    DeleteCharSpec(noMarker, '$');
    WordsChars(noDollar);
    JoinChars(words, '$');
    JoinNormalized(words);
    WordsOfJoin(words);
    JoinSpace(words)
  }

  /**
   * The contract of `CleanTitle` determines it: any `$`-free normalised text
   * with the same words is the cleaned title.
   */
  lemma CleanTitleDetermined(title: string, r: string)
    requires '$' !in r && Normalized(r)
    requires Words(r) == Words(ReplaceAll(ReplaceAll(title, EmptySuperscript, ""), "$", ""))
    ensures r == CleanTitle(title)
  {
    WordsOfNormalized(r);
    WordsOfNormalized(CleanTitle(title));
  }

  /** Cleaning a clean title changes nothing. */
  lemma CleanTitleIdempotent(title: string)
    ensures CleanTitle(CleanTitle(title)) == CleanTitle(title)
  {
    var r := CleanTitle(title);
    ReplaceAbsent(r, EmptySuperscript, "");
    ReplaceAbsent(r, "$", "");
    WordsOfNormalized(r);
  }

  /** A title already free of `$` and normalised is left as it is. */
  lemma CleanTitleFixesClean(title: string)
    requires '$' !in title && Normalized(title)
    ensures CleanTitle(title) == title
  {
    ReplaceAbsent(title, EmptySuperscript, "");
    ReplaceAbsent(title, "$", "");
    WordsOfNormalized(title);
  }

  /** The marker goes as a unit, so no stray `^{ }` is left: "A$^{ }$B" becomes "AB". */
  lemma CleanTitleMarkerExample()
    ensures CleanTitle("A$^{ }$B") == "AB"
  {
    assert ReplaceAll("A$^{ }$B", EmptySuperscript, "") == "AB" by {
      assert "A$^{ }$B"[..6] != EmptySuperscript;
      assert "A$^{ }$B"[1..] == "$^{ }$B";
      assert "$^{ }$B"[..6] == EmptySuperscript;
      assert "$^{ }$B"[6..] == "B";
      assert ReplaceAll("B", EmptySuperscript, "") == "B";
    }
    CleanTitleFixesClean("AB");
    ReplaceAbsent("AB", "$", "");
    assert Normalized("AB");
  }

  /** Every title of a section, and of its subsections, cleaned. */
  function CleanSection(s: Section): (r: Section)
    ensures r == s.(title := r.title, subsections := r.subsections)
    ensures r.title == CleanTitle(s.title)
    ensures r.subsections.Some? <==> s.subsections.Some?
    ensures s.subsections.Some? ==> |r.subsections.value| == |s.subsections.value|
    ensures s.subsections.Some? ==> forall j :: 0 <= j < |s.subsections.value| ==>
      r.subsections.value[j] == s.subsections.value[j].(title := CleanTitle(s.subsections.value[j].title))
  {
    var subs := s.subsections;
    s.(title := CleanTitle(s.title),
       subsections :=
         if subs.Some? then
           Some(seq(|subs.value|, j requires 0 <= j < |subs.value| =>
             subs.value[j].(title := CleanTitle(subs.value[j].title))))
         else None)
  }

  /** The wrapper's loop over the top-level sections. */
  function CleanTitles(d: Document): (r: Document)
    ensures |r.document| == |d.document|
    ensures forall i :: 0 <= i < |d.document| ==> r.document[i] == CleanSection(d.document[i])
  {
    Document(seq(|d.document|, i requires 0 <= i < |d.document| => CleanSection(d.document[i])))
  }

  /** Titles blanked, everything else kept. */
  function Untitled(ss: seq<Section>): seq<Section> {
    seq(|ss|, i requires 0 <= i < |ss| => ss[i].(title := ""))
  }

  /** Every title in the tree is clean. */
  predicate AllTitlesClean(ss: seq<Section>) {
    forall i :: 0 <= i < |ss| ==> '$' !in ss[i].title && Normalized(ss[i].title)
  }

  /** Position by position, each title of `a` is the cleaned title of `b`. */
  predicate TitlesCleaned(a: seq<Section>, b: seq<Section>) {
    |a| == |b| && forall i :: 0 <= i < |a| ==> a[i].title == CleanTitle(b[i].title)
  }

  lemma TitlesCleanedAppend(a: seq<Section>, b: seq<Section>, c: seq<Section>, d: seq<Section>)
    requires TitlesCleaned(a, b) && TitlesCleaned(c, d)
    ensures TitlesCleaned(a + c, b + d)
  {
    forall i | 0 <= i < |a + c| ensures (a + c)[i].title == CleanTitle((b + d)[i].title) {
      if i < |a| {
        assert (a + c)[i] == a[i] && (b + d)[i] == b[i];
      } else {
        assert (a + c)[i] == c[i - |a|] && (b + d)[i] == d[i - |a|];
      }
    }
  }

  lemma UntitledAppend(a: seq<Section>, b: seq<Section>)
    ensures Untitled(a + b) == Untitled(a) + Untitled(b)
  {
  }

  /** Each title of a cleaned section's family is the cleaned title at the same position. */
  lemma CleanFamilyTitles(s: Section)
    ensures TitlesCleaned(Family(CleanSection(s)), Family(s))
  {
    var c := CleanSection(s);
    var f := Family(c);
    var g := Family(s);
    var subs := s.subsections.ValueOr([]);
    assert |f| == |g|;
    forall i | 0 <= i < |f| ensures f[i].title == CleanTitle(g[i].title) {
      if i == 0 {
        assert f[0].title == c.title && g[0].title == s.title;
      } else {
        assert g[i] == subs[i - 1];
        assert f[i] == c.subsections.value[i - 1];
      }
    }
  }

  /** Cleaning one top-level section touches titles only, and leaves them clean. */
  lemma {:induction false} CleanFamily(s: Section)
    ensures |Family(CleanSection(s))| == |Family(s)|
    ensures Untitled(Family(CleanSection(s))) == Untitled(Family(s))
    ensures AllTitlesClean(Family(CleanSection(s)))
    ensures TitlesCleaned(Family(CleanSection(s)), Family(s))
    ensures IsTopSection(s) ==> IsTopSection(CleanSection(s))
  {
    var f := Family(CleanSection(s));
    var g := Family(s);
    assert |f| == |g|;
    CleanFamilyTitles(s);
    forall i | 0 <= i < |f| ensures f[i].(title := "") == g[i].(title := "") {
    }
  }

  lemma AllTitlesCleanAppend(a: seq<Section>, b: seq<Section>)
    requires AllTitlesClean(a) && AllTitlesClean(b)
    ensures AllTitlesClean(a + b)
  {
    forall i | 0 <= i < |a + b| ensures '$' !in (a + b)[i].title && Normalized((a + b)[i].title) {
      if i < |a| {
        assert (a + b)[i] == a[i];
      } else {
        assert (a + b)[i] == b[i - |a|];
      }
    }
  }

  lemma {:induction false} CleanTitlesFlatten(out: seq<Section>)
    ensures |Flatten(CleanTitles(Document(out)).document)| == |Flatten(out)|
    ensures Untitled(Flatten(CleanTitles(Document(out)).document)) == Untitled(Flatten(out))
    ensures AllTitlesClean(Flatten(CleanTitles(Document(out)).document))
    ensures TitlesCleaned(Flatten(CleanTitles(Document(out)).document), Flatten(out))
    ensures WellFormed(out) ==> WellFormed(CleanTitles(Document(out)).document)
  {
    var r := CleanTitles(Document(out)).document;
    if |out| > 0 {
      var r' := CleanTitles(Document(out[1..])).document;
      assert r[1..] == r';
      CleanTitlesFlatten(out[1..]);
      CleanFamily(out[0]);
      var f := Family(r[0]);
      var g := Family(out[0]);
      assert Flatten(r) == f + Flatten(r');
      assert Flatten(out) == g + Flatten(out[1..]);
      UntitledAppend(f, Flatten(r'));
      UntitledAppend(g, Flatten(out[1..]));
      AllTitlesCleanAppend(f, Flatten(r'));
      TitlesCleanedAppend(f, g, Flatten(r'), Flatten(out[1..]));
    } else {
      assert Flatten(r) == [];
    }
  }

  /**
   * `DefaultRecipe.simplify_document`: the FRC document with every title
   * cleaned. Only titles change: the flattened tree keeps its length, its
   * order, its levels and its contents, and each title becomes the cleaned
   * title it replaces.
   */
  function DefaultSimplify(doc: ParsedDoc): (r: Document)
    ensures WellFormed(r.document)
    ensures Untitled(Flatten(r.document)) == Untitled(Flatten(Simplify(FrcVariant, doc).document))
    ensures TitlesCleaned(Flatten(r.document), Flatten(Simplify(FrcVariant, doc).document))
    ensures AllTitlesClean(Flatten(r.document))
  {
    SimplifySpec(FrcVariant, doc);
    CleanTitlesFlatten(Simplify(FrcVariant, doc).document);
    CleanTitles(Simplify(FrcVariant, doc))
  }

  lemma CleanSectionIdempotent(s: Section)
    ensures CleanSection(CleanSection(s)) == CleanSection(s)
  {
    CleanTitleIdempotent(s.title);
    if s.subsections.Some? {
      var once := CleanSection(s).subsections.value;
      var twice := CleanSection(CleanSection(s)).subsections.value;
      assert |twice| == |once|;
      forall j | 0 <= j < |once| ensures twice[j] == once[j] {
        var t := s.subsections.value[j].title;
        CleanTitleIdempotent(t);
        assert once[j].title == CleanTitle(t);
        assert twice[j] == once[j].(title := CleanTitle(once[j].title));
      }
      assert twice == once;
    }
  }

  /** Cleaning the titles of an already cleaned document changes nothing. */
  lemma CleanTitlesIdempotent(d: Document)
    ensures CleanTitles(CleanTitles(d)) == CleanTitles(d)
  {
    forall i | 0 <= i < |d.document|
      ensures CleanTitles(CleanTitles(d)).document[i] == CleanTitles(d).document[i]
    {
      CleanSectionIdempotent(d.document[i]);
    }
  }
}

=== FILE: wrappers.dfy ===
/** Option and Result, the two failure-carrying datatypes the model needs. */
module Wrappers {

  /** A value that may be absent (Python's `None`). */
  datatype Option<+T> = None | Some(value: T) {

    /** The value, or `fallback` when absent. */
    function ValueOr(fallback: T): T {
      if Some? then value else fallback
    }

    /** The value as a one-element sequence, or the empty sequence when absent. */
    function ToSeq(): seq<T> {
      if Some? then [value] else []
    }
  }

  /** The outcome of an operation that may raise: a value or an error message. */
  datatype Result<+R, +E> = Success(value: R) | Failure(error: E)
}
